=== FILE: README.md ===
# Feedia food-sharing API — a Dafny model

Feedia is an Express and Mongoose API for food sharing. Donors offer food
as *donations*. Pickup services claim an available donation, which writes
a *pickup* request and marks the donation `picked_up`. A periodic job marks
available donations past their expiration time as `expired`. Admins manage
users, drop-off points and listings. Users review each other.

This project models that core as pure functions over an immutable store:

- **Store.** Five maps from document id to document: users, donations,
  pickups, reviews and drop-off points.
- **Handlers.** Each route handler is a function from the store, the caller's
  token payload, the current time and the request body to an `Outcome`. An
  outcome holds the new store, the HTTP status, the message, the returned
  document and the validation messages.
- **Schemas.** Each Mongoose schema becomes a datatype plus a validation
  function. The function reports the messages of the failing validators in
  path order.
- **Lengths.** A string is a sequence of Unicode scalar values. The
  `minlength` and `maxlength` validators compare JavaScript's `length`,
  which counts UTF-16 code units. `Text.Utf16Length` therefore counts a
  character outside the Basic Multilingual Plane twice.

The modules follow the repository's layout:

| file | module | models |
|---|---|---|
| `common.dfy` | `Common` | option/result types, status codes, roles, validation-message collection |
| `text.dfy` | `Text` | the `trim` and `lowercase` setters, `String.prototype.replace` with a string pattern, and JavaScript's `length` in UTF-16 code units |
| `user.dfy` | `UserModel` | `models/User.js` |
| `donation.dfy` | `DonationModel` | `models/Donation.js` |
| `pickup.dfy` | `PickupModel` | `models/Pickup.js` |
| `review.dfy` | `ReviewModel` | `models/Review.js`, including `calculateAverageRating` |
| `dropoff.dfy` | `DropOffModel` | `models/DropOff.js` |
| `auth_gate.dfy` | `AuthGate` | `middleware/auth.js` |
| `stores.dfy` | `Stores` | the collections and the shape of a handler's answer |
| `expiry.dfy` | `ExpirySweep` | `markExpiredDonations` in `server.js` |
| `pickup_routes.dfy` | `PickupRoutes` | `routes/pickups.js` |
| `donation_routes.dfy` | `DonationRoutes` | `routes/donations.js` |
| `pagination.dfy` | `Pagination` | the paged listings of `routes/admin.js` |
| `admin_routes.dfy` | `AdminRoutes` | `routes/admin.js` |
| `review_routes.dfy` | `ReviewRoutes` | `routes/reviews.js` |
| `auth_routes.dfy` | `AuthRoutes` | `routes/auth.js` |

Library behaviour the model relies on:

- **Validation runs before user pre-save hooks.** On a save, paths loaded
  from the database are validated again, alongside the modified ones. Two
  consequences follow:
  - A stored donation whose expiration time has passed fails validation when
    it is saved again.
  - The donation expiry pre-save hook cannot change a document that passed
    validation at the same instant.
- **Query filters go through the schema's setters.** So `findOne({ email })`
  compares trimmed, lower-cased addresses.
- **`findByIdAndUpdate` runs setters but no validators.**
- **Aggregation pipelines are not cast to the schema.** A string id in
  `$match` is never equal to a stored object id.

Parameters stand in for what the model does not compute:

- `verify` stands for JWT signature checking. It returns the payload of a
  valid token.
- `hash` and `matches` stand for bcrypt.
- `now` stands for the clock.
- `newId` stands for the id the database assigns. It is required to be fresh.
- `order` lists ids newest first, for the `sort({ createdAt: -1 })` listings.
  Any list is accepted. When it lists every stored id exactly once
  (`Pagination.ListsEach`), as a sort of the collection does, the contracts
  also state the totals and the lengths of the listings.

## Model

| member | source | states |
|---|---|---|
| Common.Collect | routes/donations.js:44-49 | the reported messages are exactly those of the failing validators; none fail iff the list is empty |
| Common.ParseRole | models/User.js:22-28 | accepts exactly the three role names, and the role it returns prints back as the input |
| Text.Trim | models/User.js:13 | the input is blanks, then the result, then blanks, and the result neither starts nor ends with a blank |
| Text.TrimEmptyIffAllSpace | models/User.js:13 | trimming yields the empty string iff the value was all blanks |
| Text.TrimIdempotent | models/User.js:13 | trimming a trimmed value changes nothing |
| Text.ToLower | models/User.js:14 | same length; each ASCII upper-case letter becomes the lower-case letter 32 code points on, every other character is untouched, so no upper-case letter is left and blanks stay blanks |
| Text.ReplaceFirst | middleware/auth.js:7 | only the first occurrence is replaced; without one the string is unchanged |
| Text.ReplaceFirstPrefix | middleware/auth.js:7 | a leading occurrence of the pattern is stripped exactly |
| UserModel.NormalizeEmail | models/User.js:9-16 | the stored address is the trimmed input with each character lower-cased: as long as the trimmed input, no upper-case letter, no blank at either end |
| UserModel.NormalizeEmailIdempotent | models/User.js:13-14 | normalising a stored address again leaves it as it is |
| UserModel.EmailPatternSurvivesLowercase | models/User.js:14-15 | an address matching the pattern before lower-casing still matches after it |
| UserModel.NormalizedIsFixed | models/User.js:13-14 | an address without blanks at its ends and without upper-case letters is left alone by the setters |
| UserModel.EmailPatternExamples | models/User.js:15 | `ann@food-bank.org`, with a hyphenated domain, matches |
| UserModel.EmailPatternRefusals | models/User.js:15 | `ann@food`, without a dot, and `ann@food.c`, with a one-character ending, do not match |
| UserModel.EmailCheck | models/User.js:9-16 | the email validators pass iff the address matches the pattern |
| Common.Required | models/Donation.js:49-58 | a required path fails, with its message, exactly when the value is missing |
| UserModel.PasswordCheck | models/User.js:17-21 | the password validators pass iff the stored value is at least 6 long, counted as JavaScript's `length` in UTF-16 code units (an astral character counts twice) |
| UserModel.PasswordLengthCountsCodeUnits | models/User.js:17-21 | the minimum counts code units: three astral emoji pass, two letters and one emoji are too short |
| UserModel.UserViolations | models/User.js:3-39 | no messages iff the user is valid; each failing rule contributes its message |
| DonationModel.ParseCategory | models/Donation.js:14-21 | accepts exactly the three category names |
| DonationModel.ParseDonationStatus | models/Donation.js:41-48 | accepts exactly the four status names |
| DonationModel.ExpirationCheck | models/Donation.js:27-36 | the expiration validators pass iff the time is given and strictly later than now |
| DonationModel.DraftErrors | models/Donation.js:9-58 | no messages iff the draft is valid; a past expiration, a quantity below 1 and an unknown category each report their message |
| DonationModel.ValidateDraft | models/Donation.js:3-58 | a new donation is stored iff every validator passes; the stored fields are the trimmed inputs; status defaults to `available`; otherwise the failing validators' messages |
| DonationModel.ExpiryHook | models/Donation.js:86-92 | an expired donation gets status `expired` whatever its status; otherwise it is unchanged; nothing but the status changes |
| DonationModel.SaveDonation | models/Donation.js:27-36 | re-saving succeeds iff the stored fields still validate, including a future expiration time, and then stores the document unchanged |
| PickupModel.ParsePickupStatus | models/Pickup.js:14-21 | accepts exactly the three pickup statuses |
| PickupModel.NewPickup | models/Pickup.js:3-28 | a pickup is built iff both references are given and any status is valid; status defaults to `pending` |
| PickupModel.AvailabilityGuard | models/Pickup.js:58-75 | the guard passes iff the referenced donation exists and is `available`, and otherwise names which check failed |
| PickupModel.SavePickup | models/Pickup.js:58-75 | a save writes exactly the one pickup iff its donation exists and is `available` |
| PickupModel.GuardBlocksResave | models/Pickup.js:58-75 | once its donation has left `available`, no save of a pickup that references it succeeds, whatever the pickup's status |
| ReviewModel.ParseReviewType | models/Review.js:33-39 | accepts exactly the three review types |
| ReviewModel.RatingCheck | models/Review.js:22-27 | the rating validators pass iff the rating is given and lies in [1, 5] |
| ReviewModel.CommentCheck | models/Review.js:28-32 | the comment validator passes iff the comment is absent or at most 500 UTF-16 code units long, JavaScript's `length` |
| ReviewModel.AstralCommentHalvesLimit | models/Review.js:28-32 | a comment of astral characters only passes iff it holds at most 250 of them |
| ReviewModel.NewReview | models/Review.js:3-43 | a review is built iff both user references, a rating in [1, 5], a trimmed comment of at most 500 UTF-16 code units and a known type are given; the result satisfies the schema |
| ReviewModel.SaveReview | models/Review.js:22-32 | re-saving an edited review succeeds iff its rating and comment still validate |
| ReviewModel.RatingSumRemove | models/Review.js:62 | the rating sum of a set of reviews is any one member's rating plus the sum of the rest, so the order of the aggregation does not matter |
| ReviewModel.RatingSumBounds | models/Review.js:22-27 | with every rating in [1, 5] the sum of n ratings lies in [n, 5n] |
| ReviewModel.AverageOver | models/Review.js:57-70 | the group reports the number of matched reviews and their mean rating, or 0 and 0 when nothing matched |
| ReviewModel.CalculateAverageRating | models/Review.js:56-71 | the count is the number of reviews about the user and the average times the count is their rating sum |
| ReviewModel.AverageWithinRatingRange | models/Review.js:62 | when every stored review is valid, a user's average rating lies in [1, 5] |
| DropOffModel.NewDropOff | models/DropOff.js:3-27 | a point is built iff the trimmed name and address are non-empty and the coordinates lie in [-90, 90] and [-180, 180]; out-of-range coordinates report their message |
| DropOffModel.RangeCheck | models/DropOff.js:15-26 | a coordinate passes iff it is given and within its bounds |
| DropOffModel.FormattedLocation | models/DropOff.js:47-52 | the formatted location holds the stored latitude and longitude |
| AuthGate.BearerToken | middleware/auth.js:7 | the header with its first `Bearer ` cut out, wherever it stands; a header without one is used as the token itself |
| AuthGate.Authenticate | middleware/auth.js:3-29 | 401 without a token or with an invalid one, 403 when roles are listed and the token's role is not among them, otherwise admits exactly the token's payload |
| AuthGate.BearerHeaderAdmits | middleware/auth.js:7-24 | `Bearer <token>` admits the token's payload when its role is allowed and is refused with 403 otherwise |
| AuthGate.BareBearerHasNoToken | middleware/auth.js:9-11 | a header that is just `Bearer ` is refused as carrying no token |
| AuthGate.BearerStripIsUnanchored | middleware/auth.js:7 | after any text that does not itself start a `Bearer `, the first `Bearer ` is cut out where it stands and the leading text stays in the token |
| AuthGate.BearerStripExample | middleware/auth.js:7 | `xBearer abc` yields the token `xabc` |
| AuthGate.EmptyRoleListAdmitsAnyValidToken | middleware/auth.js:20 | `auth([])` admits every caller holding a valid token |
| Stores.Guarded | middleware/auth.js:20-24 | a refused caller gets the gate's answer with the store untouched; an admitted caller reaches the handler with the token's payload |
| ExpirySweep.Sweep | server.js:71-79 | exactly the available donations past their expiration time become `expired`; nothing else in any donation changes |
| ExpirySweep.Matched | server.js:72-75 | the update matches exactly the available donations whose expiration time is before now |
| ExpirySweep.ModifiedCount | server.js:80 | the reported count is the number of matched donations and never exceeds the number of donations |
| ExpirySweep.SweepOnlyExpiresAvailable | server.js:73-77 | the only status change is `available` to `expired`; picked-up, delivered and expired donations are untouched |
| ExpirySweep.SweepIdempotent | server.js:69-86 | a second run at the same or an earlier time changes nothing and reports 0 |
| ExpirySweep.SweepAgreesWithIsExpired | models/Donation.js:82-84 | for an available donation, the job's filter agrees with `isExpired` |
| ExpirySweep.NoStaleAvailableAfterSweep | server.js:69-86 | after a run no available donation is past its expiration time |
| ExpirySweep.MarkExpiredDonations | server.js:69-86 | only the donations change, no donation is added or removed, exactly the matched ones differ, and no stale available donation remains |
| PickupRoutes.Claim | routes/pickups.js:10-93 | 400 for a missing, unavailable or already-requested donation with the store untouched; 201 iff the donation is claimable and can still be saved, with one pending pickup added and the donation marked `picked_up` |
| PickupRoutes.ClaimRoute | routes/pickups.js:10 | a successful claim implies the caller holds a valid token with the `pickup` role; a refused caller changes nothing |
| PickupRoutes.ClaimLeavesOrphanPickup | routes/pickups.js:40-45 | claiming an available but unswept expired donation answers 400 yet keeps the new pending pickup, leaving the donation `available` |
| PickupRoutes.OrphanBlocksLaterClaims | routes/pickups.js:24-32 | after such a failure every later claim of that donation is refused as a duplicate |
| PickupRoutes.OnlyPendingRequestsBlock | routes/pickups.js:25-32 | an `accepted` request for an available donation does not block a new claim, which succeeds whenever the donation can be saved |
| PickupRoutes.ClaimAddsOnePickup | routes/pickups.js:34-41 | a successful claim adds exactly one pickup |
| PickupRoutes.ClaimedPickupIsPending | models/Pickup.js:47-55 | the pickup a claim creates is the caller's, pending and not completed |
| PickupRoutes.ClaimedPickupCannotBeSavedAgain | models/Pickup.js:58-75 | after a successful claim, the new pickup can never be saved again, whatever status it is given |
| PickupRoutes.ClaimAtomic | routes/pickups.js:40-45 | the corrected claim: the same success condition and effect, and a failed claim leaves the store untouched |
| PickupRoutes.ClaimAtomicPreservesConsistency | routes/pickups.js:24-45 | with the corrected claim, no pending pickup ever sits on an `available` donation |
| PickupRoutes.SweepPreservesConsistency | server.js:69-86 | the expiry job keeps that consistency: it only moves donations out of `available` |
| DonationRoutes.DraftOf | routes/donations.js:9-31 | the donor is the caller, the status is left to the default, and every other field comes from the body |
| DonationRoutes.CreateDonation | routes/donations.js:7-53 | 201 iff every schema validator passes; the stored donation is owned by the caller, `available`, and carries the trimmed food type, the parsed category, the quantity (at least 1), the future expiration time, the trimmed image and the location from the body; otherwise 400 with exactly the failing validators' messages in path order and no write |
| DonationRoutes.RefusedDonationNamesFaults | routes/donations.js:44-48 | a refused donation's messages include the expiry, quantity and category messages whenever those fields are wrong |
| DonationRoutes.CreateDonationRoute | routes/donations.js:7 | a created donation implies a valid token with the `donor` role; a refused caller changes nothing |
| DonationRoutes.BodyOwnerAndStatusIgnored | routes/donations.js:9-31 | a `donorId` or `status` in the body changes nothing in the outcome |
| DonationRoutes.CreatedDonationIsFresh | routes/donations.js:20-34 | each stored donation is `available`, unexpired and owned by the token's user |
| Pagination.Window | routes/admin.js:77-78 | the window holds the documents after `skip`, at most `limit` of them, with 0 meaning no limit |
| Pagination.PageCount | routes/admin.js:87 | the page count is the least number of pages of size `limit` covering the total, or null for a zero limit |
| Pagination.Skip | routes/admin.js:77 | the skip is negative iff the page is below 1 and the limit is positive |
| Pagination.Paginate | routes/admin.js:74-87 | a negative skip fails; otherwise the page holds the documents from position `(page - 1) * limit` on, at most `limit` of them, with the total and page count |
| Pagination.EveryItemOnItsPage | routes/admin.js:74-87 | every document appears on page `i / limit + 1` at position `i % limit`, and that page is within the page count |
| Pagination.Select | routes/admin.js:69-76 | the listing keeps exactly the stored documents that pass the filter, as a subsequence of the given order |
| Pagination.SelectDistinct | routes/admin.js:74-78 | over an order without repeats the listing has no repeats |
| Pagination.SelectKeepsAll | routes/admin.js:37-46 | without a filter, over stored ids only, the listing is the whole order |
| Pagination.SelectCountsMatches | routes/admin.js:80 | over a sort of the whole collection, the listing is as long as the number of documents the filter matches, which is what `countDocuments(filter)` reports |
| Pagination.ListsEachLength | routes/admin.js:37-46 | a sort of the whole collection is as long as the collection |
| Pagination.PageOfDocuments | routes/admin.js:151-157 | each item of a page of documents is the stored document of the id at its position after the skip |
| AdminRoutes.AdminOnly | routes/admin.js:10 | admin routes run their handler only for a token with the `admin` role, and write nothing otherwise |
| AdminRoutes.NonAdminRefused | routes/admin.js:96 | a valid donor or pickup token gets 403 from every admin route, with the store untouched |
| AdminRoutes.AdminTokenOutlivesStoredRole | middleware/auth.js:14-22 | an admin token keeps opening admin routes after the stored role was changed or the account deleted |
| AdminRoutes.RoleFilter | routes/admin.js:69-72 | with no role query every user passes; otherwise exactly the users whose role name equals it |
| AdminRoutes.StatusFilter | routes/admin.js:146-149 | with no status query every donation passes; otherwise exactly those whose status name equals it |
| AdminRoutes.ListUsers | routes/admin.js:65-93 | 500 iff the page is below 1 with a positive limit; otherwise the page holds the matching users from position `(page - 1) * limit` of the listing on, without passwords, at most `limit` of them; the total is the number of users the filter matches and the page count covers it |
| AdminRoutes.ListDonations | routes/admin.js:142-170 | 500 iff the skip is negative; otherwise the page holds the matching stored donations from position `(page - 1) * limit` of the listing on; the total is the number of donations the filter matches and the page count covers it |
| AdminRoutes.EveryMatchingUserIsListed | routes/admin.js:74-87 | with a positive page size, every user matching the filter is on some page within the page count |
| AdminRoutes.EveryMatchingDonationIsListed | routes/admin.js:151-164 | with a positive page size, every donation matching the filter is on some page within the page count |
| AdminRoutes.UsersWithRole | routes/admin.js:19-21 | exactly the users having the role |
| AdminRoutes.RecentUsers | routes/admin.js:42-46 | at most ten stored users without passwords; over a sort of the collection, the first ten of it, or all users when fewer |
| AdminRoutes.RecentDonations | routes/admin.js:36-40 | at most ten stored donations; over a sort of the collection, the first ten of it, or all donations when fewer |
| AdminRoutes.AdminStats | routes/admin.js:10-62 | totals are the collection sizes; a role or status appears iff some document has it, with its count; the recent lists are the ten newest users and donations |
| AdminRoutes.RoleCountsAddUp | routes/admin.js:19-25 | the per-role counts add up to the number of users |
| AdminRoutes.StatusCountsAddUp | routes/admin.js:28-34 | the per-status counts add up to the number of donations |
| AdminRoutes.DashboardCountsAddUp | routes/admin.js:19-34 | the dashboard's per-role and per-status figures, absent groups counting 0, add up to its user and donation totals |
| AdminRoutes.UpdateRole | routes/admin.js:96-123 | 400 for a missing or unknown role, 404 for an unknown user, otherwise only that user's role changes |
| AdminRoutes.UpdateRoleKeepsUsersValid | routes/admin.js:105-109 | a role change keeps email addresses unique and every user valid |
| AdminRoutes.DeleteUser | routes/admin.js:126-139 | 404 for an unknown user; otherwise only that account disappears and the user's donations, pickups and reviews remain |
| AdminRoutes.DeleteUserKeepsUsersValid | routes/admin.js:128-134 | deleting an account keeps addresses unique and every remaining user valid |
| AdminRoutes.DeletedUserHasNoProfile | routes/admin.js:128-134 | after a deletion, `GET /me` for that account and a second deletion both answer 404 |
| AdminRoutes.CreateDropOff | routes/admin.js:173-200 | 400 without a name or address; 201 iff the trimmed name and address are non-empty and the coordinates, defaulting to 0, are in range; once both are given, any other failure is a 500 with no write |
| AdminRoutes.BlankDropOffNameIsServerError | routes/admin.js:177-198 | a name of blanks passes the handler's check but fails the schema, answered as 500 |
| AdminRoutes.UpdateDropOff | routes/admin.js:203-232 | 404 for an unknown point; otherwise a truthy name or address replaces the stored one, trimmed, and the location changes only when both coordinates are given |
| AdminRoutes.UpdateDropOffCanBreakValidity | routes/admin.js:214-218 | because no validator runs, an update can store a latitude outside [-90, 90] |
| AdminRoutes.EmptyDropOffUpdateChangesNothing | routes/admin.js:207-211 | an update carrying nothing leaves the store unchanged |
| AdminRoutes.DeleteDropOff | routes/admin.js:235-248 | 404 for an unknown point with no write; otherwise only that point disappears and every other collection is unchanged |
| AdminRoutes.DeleteUndoesInsert | routes/admin.js:237-243 | deleting a point that was just added gives back the store as it was |
| AdminRoutes.CreateThenDeleteDropOff | routes/admin.js:173-248 | deleting a point right after creating it restores the store, and a second deletion answers 404 |
| AdminRoutes.Take | routes/admin.js:39 | at most ten ids, taken from the front |
| AdminRoutes.ExpireDonations | routes/admin.js:251-271 | the same update as the periodic job: exactly the matched donations become `expired`, nothing else in the store changes, and the reported count is the number of matched donations |
| AdminRoutes.ExpireTwiceReportsZero | routes/admin.js:253-265 | running the manual expiry twice at the same moment reports 0 the second time and changes nothing |
| ReviewRoutes.CreateReviewWith | routes/reviews.js:30-96 | 400 without reviewee, truthy rating or type; 400 for a self-review; 404 for an unknown reviewee; 400 for a duplicate; 201 iff the reviewee exists, there is no duplicate and the schema accepts the review; the stored review is the one the schema built from the request (reviewer, reviewee, references, rating, trimmed comment, type); a schema refusal is 400 `Validation error` with the validators' messages and no write |
| ReviewRoutes.CreateReview | routes/reviews.js:53-66 | a review created by the handler as written is valid, not about its author, and has no duplicate under the written query |
| ReviewRoutes.EarlierReviewBlocksUnrelatedDonation | routes/reviews.js:53-60 | an earlier review without a pickup reference blocks any later review of the same user that also lacks one, whatever its donation |
| ReviewRoutes.CreateReviewCorrected | routes/reviews.js:53-66 | the corrected handler creates a review only when no review shares its donation or pickup |
| ReviewRoutes.CorrectedRuleAdmitsOtherDonation | routes/reviews.js:53-60 | under the corrected rule a valid review of a different donation is created |
| ReviewRoutes.CorrectedRuleRefusesSameDonation | routes/reviews.js:53-66 | under the corrected rule a second review of the same donation is still refused |
| ReviewRoutes.CorrectedRuleIsNarrower | routes/reviews.js:56-59 | every duplicate under the corrected rule is also one under the written query |
| ReviewRoutes.UpdateReview | routes/reviews.js:99-127 | 404 or 403 with no write; on success only the rating (when truthy) and comment (when present, trimmed) of that review change, and both are within the schema's bounds, so a valid review stays valid; for the reviewer of a valid review the edit succeeds exactly when the new rating and comment are within bounds, and otherwise answers 500 |
| ReviewRoutes.EditSavable | routes/reviews.js:114-122 | an edited valid review can be saved exactly when the new rating and trimmed comment are within the schema's bounds, and is then valid |
| ReviewRoutes.DeleteReview | routes/reviews.js:130-153 | the review is removed iff it exists and the caller wrote it or is an admin; 403 otherwise |
| ReviewRoutes.CreateKeepsReviewsValid | routes/reviews.js:68-78 | creating a review keeps every stored review within the schema |
| ReviewRoutes.UpdateKeepsReviewsValid | routes/reviews.js:114-117 | editing a review keeps every stored review within the schema |
| ReviewRoutes.DeleteKeepsReviewsValid | routes/reviews.js:144-146 | deleting a review keeps every remaining review within the schema |
| ReviewRoutes.ReviewsInOrder | routes/reviews.js:10-13 | only stored reviews passing the filter, every one of them listed in the order appears, and over a sort of the collection the listing is as long as the number of matches |
| ReviewRoutes.ReviewsAboutInOrder | routes/reviews.js:10-13 | the listing holds only stored reviews about the user, every listed review about the user appears in it, and over a sort of the collection it has one entry per review about the user |
| ReviewRoutes.MyGivenReviews | routes/reviews.js:156-172 | exactly the stored reviews written by the caller, each once over a sort of the collection, with no write |
| ReviewRoutes.AggregateMatch | models/Review.js:58 | an uncast string id matches no review; an object id matches exactly the reviews about that user |
| ReviewRoutes.ReviewsOfUser | routes/reviews.js:8-27 | as written, the statistics are always 0 reviews with average 0 |
| ReviewRoutes.ListedReviewsNotEmpty | routes/reviews.js:10-13 | a user with a stored review gets a non-empty listing |
| ReviewRoutes.MyReceivedReviews | routes/reviews.js:175-193 | the reviews about the caller, and, as written, statistics of 0 reviews with average 0 |
| ReviewRoutes.ReviewsOfUserCast | routes/reviews.js:15-21 | with the id cast, the count is the number of reviews about the user and agrees with the length of the listing, and with valid reviews the average lies in [1, 5] |
| AuthRoutes.NewUser | routes/auth.js:34-43 | the new user has the normalised email, the hashed password, the requested role, the trimmed name and coordinates defaulting to 0 |
| AuthRoutes.RegisterWith | routes/auth.js:8-62 | 400 for missing fields, an unknown role or a taken normalised address; 201 iff the schema accepts the built user, which is then the only write |
| AuthRoutes.Register | routes/auth.js:8-62 | a registered user is valid, its address was not taken, and its stored password is the hash |
| AuthRoutes.RegisterKeepsUsersValid | routes/auth.js:24-46 | registration keeps addresses unique and every stored user valid |
| AuthRoutes.SecondRegistrationWithSameAddressRefused | routes/auth.js:24-27 | an address differing only in case or surrounding blanks cannot be registered twice |
| AuthRoutes.ShortPasswordAccepted | routes/auth.js:31-46 | because the length rule sees the 60-character hash, a password shorter than 6 code units is accepted |
| AuthRoutes.RegisterStrict | routes/auth.js:29-37 | the corrected handler creates a user only for a password of at least 6 UTF-16 code units, and refuses a shorter one with the schema's message |
| AuthRoutes.AnyoneMayRegisterAsAdmin | routes/auth.js:18-21 | self-registration with role `admin` stores an admin |
| AuthRoutes.Login | routes/auth.js:65-108 | 200 iff some user has the normalised address and the password matches its hash; the token payload is that user's id, role and name, valid 24 hours; an unknown address and a wrong password get the same 400 answer |
| AuthRoutes.Me | routes/auth.js:111-122 | the caller's stored profile without password, or 404 |
| AuthRoutes.AddingFreshAddressKeepsEmailsUnique | routes/auth.js:24-27 | adding a user whose address is not taken keeps addresses unique |
| AuthRoutes.LoginFindsAccount | routes/auth.js:74-95 | a login with an address normalising to a stored one and a password that account accepts admits exactly that account |
| AuthRoutes.RegisterThenLogin | routes/auth.js:8-122 | after a registration, logging in with the password and any spelling of the address that normalises alike admits the new account with its role, and `GET /me` with those claims returns the registered profile |

## Left out

- The React client, uploads (`routes/uploads.js`) and the public drop-off
  listing (`routes/dropoffs.js`) are not part of this model.
- `calculateDistance`, `toRad` and `findNearest` on drop-off points are left
  out. They are floating-point trigonometry.
- The donor e-mail notification after a claim is left out. It is
  fire-and-forget I/O that cannot change the answer or the store.
- JWT signing and verification and bcrypt hashing are parameters. The login
  answer carries the payload and lifetime rather than a signed string.
- Ids are naturals. A malformed id in a path or body is left out; in the
  source it raises a cast error answered with 500.
- `NaN`, `Infinity`, `null` body values and values of the wrong JSON type
  (a string where a number is expected, and the like) are left out. Numbers
  are reals and times are integer milliseconds.
- A negative limit, and page or limit values that are not integers, are
  left out: the page is an integer and the limit a natural. A page below 1
  is modelled and, with a positive limit, gives the 500 of a negative skip.
- Sort order by `createdAt` is an input (`order`), not computed. `populate`
  of referenced names and the `createdAt`/`updatedAt` timestamps are left out.
- Scheduling, the 5-minute interval, concurrency between requests and
  database failures inside handlers are left out. So are errors of the bulk
  update and the unique-index race between the duplicate check and the save.
- The blank set recognised by `trim` covers ASCII blanks, no-break space and
  the byte-order mark; other Unicode spaces are left out. `lowercase` folds
  ASCII letters only.
- The email pattern's final group `(\.\w{2,3})+` is modelled by its last
  repetition. The earlier repetitions are absorbed by the domain word run,
  which accepts the same strings.
- Stats.recentDonations is not populated with donor names, and the stats
  answer's message is empty. The source sends no message there.

## Findings

| source | as written | input that shows it | evidently intended | confidence | as-written member | corrected member |
|---|---|---|---|---|---|---|
| routes/auth.js:31-37 | the password is hashed before the schema's 6-character minimum is checked, so the validator sees the 60-character hash | registering with password `abc` succeeds | passwords shorter than 6 characters are refused, as the schema message and the client form say | not executed; high | AuthRoutes.ShortPasswordAccepted | AuthRoutes.RegisterStrict |
| routes/pickups.js:40-45 | the pickup is saved before the donation, and a failed donation save leaves the pickup behind | claiming an `available` donation whose expiration time passed less than 5 minutes ago, before the job marks it: the answer is 400 but a pending pickup is stored and the donation can never be claimed again | both writes succeed or neither does | not executed; high | PickupRoutes.ClaimLeavesOrphanPickup | PickupRoutes.ClaimAtomic |
| routes/reviews.js:53-60 | `donationId \|\| null` and `pickupId \|\| null` also match reviews lacking the field | reviewing user B for donation d1 and later for donation d2, neither with a pickup: the second review is refused as a duplicate | a review is a duplicate only when it shares a supplied donation or pickup | not executed; high | ReviewRoutes.EarlierReviewBlocksUnrelatedDonation | ReviewRoutes.CreateReviewCorrected |
| models/Review.js:57-58 | the aggregation matches `revieweeId` against a string id, from the request path or the token, which is never equal to a stored object id | `GET /api/reviews/user/<id>` for a user with reviews lists them but reports `totalReviews: 0` and `averageRating: 0` | the statistics describe the listed reviews | not executed; medium | ReviewRoutes.ReviewsOfUser | ReviewRoutes.ReviewsOfUserCast |

=== FILE: admin_routes.dfy ===
/** The `/api/admin` routes, every one behind `auth(['admin'])`: dashboard
    counts, paged listings of users and donations, role changes, user
    deletion, drop-off point management and the manual expiry sweep. */
module AdminRoutes {
  import opened Common
  import opened Text
  import opened UserModel
  import opened DonationModel
  import opened DropOffModel
  import opened AuthGate
  import opened Stores
  import opened Pagination
  import opened ExpirySweep
  import AuthRoutes

  const UsersRetrieved := "Users retrieved successfully"
  const DonationsRetrieved := "Donations retrieved successfully"
  const InvalidRole := "Invalid role"
  const UserNotFound := "User not found"
  const RoleUpdated := "User role updated successfully"
  const UserDeleted := "User deleted successfully"
  const NameAndAddressRequired := "Name and address are required"
  const DropOffCreated := "Drop-off point created successfully"
  const DropOffNotFound := "Drop-off point not found"
  const DropOffUpdated := "Drop-off point updated successfully"
  const DropOffDeleted := "Drop-off point deleted successfully"
  const ExpiredUpdated := "Expired donations updated"
  const RecentCount := 10

  /** An admin route: the handler runs only for a caller whose token says `admin`. */
  function AdminOnly<B>(s: Store, header: Option<string>, verify: string -> Option<Claims>,
                        handler: Claims -> Outcome<B>): (o: Outcome<B>)
    ensures Authenticate(header, verify, [AdminRole]).Granted? ==>
              o == handler(Authenticate(header, verify, [AdminRole]).user)
    ensures Authenticate(header, verify, [AdminRole]).Denied? ==> o.store == s && o.body.None?
  {
    Guarded(s, header, verify, [AdminRole], handler)
  }

  /** A valid token for a donor or a pickup service is refused with 403 by
      every admin route, and nothing is written. */
  lemma NonAdminRefused<B>(s: Store, token: string, verify: string -> Option<Claims>,
                           handler: Claims -> Outcome<B>, c: Claims)
    requires token != "" && verify(token) == Some(c) && c.role != AdminRole
    ensures AdminOnly(s, Some(BearerPrefix + token), verify, handler) == Reply(s, FORBIDDEN, AccessDenied)
  {
    BearerHeaderAdmits(token, verify, [AdminRole], c);
  }

  /** The gate reads the role from the token, not from the store: a token
      issued while the caller was an admin keeps opening the admin routes
      after the stored role has changed or the account was deleted. */
  lemma AdminTokenOutlivesStoredRole<B>(s: Store, s1: Store, token: string, verify: string -> Option<Claims>,
                                        handler: Claims -> Outcome<B>, c: Claims)
    requires token != "" && verify(token) == Some(c) && c.role == AdminRole
    requires c.userId !in s1.users || s1.users[c.userId].role != AdminRole
    ensures AdminOnly(s1, Some(BearerPrefix + token), verify, handler) == handler(c)
  {
    BearerHeaderAdmits(token, verify, [AdminRole], c);
  }

  // ---------------------------------------------------------------------
  // Listings

  /** The `if (role) filter.role = role` filter; a string naming no role
      matches no user. */
  function RoleFilter(role: Option<string>): (f: User -> bool)
    ensures !Truthy(role) ==> forall u :: f(u)
    ensures Truthy(role) ==> forall u :: f(u) <==> RoleName(u.role) == role.value
  {
    if Truthy(role) then (u: User) => RoleName(u.role) == role.value else (u: User) => true
  }

  function StatusFilter(status: Option<string>): (f: Donation -> bool)
    ensures !Truthy(status) ==> forall d :: f(d)
    ensures Truthy(status) ==> forall d :: f(d) <==> DonationStatusName(d.status) == status.value
  {
    if Truthy(status) then (d: Donation) => DonationStatusName(d.status) == status.value else (d: Donation) => true
  }

  function PublicUsers(ids: seq<Id>, users: map<Id, User>): (r: seq<PublicUser>)
    requires forall i :: 0 <= i < |ids| ==> ids[i] in users
    ensures |r| == |ids|
    ensures forall i :: 0 <= i < |ids| ==> r[i] == Public(ids[i], users[ids[i]])
  {
    seq(|ids|, i requires 0 <= i < |ids| => Public(ids[i], users[ids[i]]))
  }

  /** `GET /users`: the users matching the role filter, newest first
      (`order` lists the stored ids by creation time, newest first),
      without passwords, one page at a time. */
  function ListUsers(s: Store, order: seq<Id>, role: Option<string>, page: Option<int>, limit: Option<nat>)
    : (o: Outcome<Page<PublicUser>>)
    ensures o.store == s
    ensures o.code == OK || o == Reply(s, SERVER_ERROR, ServerErrorMessage)
    ensures o.code == OK ==> o.message == UsersRetrieved && o.body.Some?
    ensures o.code == OK <==> !(page.GetOr(DefaultPage) < 1 && limit.GetOr(DefaultLimit) > 0)
    ensures o.code == OK ==> forall u :: u in o.body.value.items ==>
              u.id in s.users && u == Public(u.id, s.users[u.id]) && RoleFilter(role)(s.users[u.id])
    ensures o.code == OK && limit.GetOr(DefaultLimit) > 0 ==> |o.body.value.items| <= limit.GetOr(DefaultLimit)
    ensures o.code == OK ==>
              var ids := Select(order, s.users, RoleFilter(role));
              var skip := Skip(page.GetOr(DefaultPage), limit.GetOr(DefaultLimit));
              && o.body.value.total == |ids| && o.body.value.page == page.GetOr(DefaultPage)
              && o.body.value.pages == PageCount(|ids|, limit.GetOr(DefaultLimit))
              && forall i :: 0 <= i < |o.body.value.items| ==>
                   0 <= skip + i < |ids| && o.body.value.items[i] == Public(ids[skip + i], s.users[ids[skip + i]])
    ensures o.code == OK && ListsEach(order, s.users) ==> o.body.value.total == |Matching(s.users, RoleFilter(role))|
  {
    var ids := Select(order, s.users, RoleFilter(role));
    assert ListsEach(order, s.users) ==> |ids| == |Matching(s.users, RoleFilter(role))| by {
      if ListsEach(order, s.users) { SelectCountsMatches(order, s.users, RoleFilter(role)); }
    }
    match Paginate(PublicUsers(ids, s.users), page.GetOr(DefaultPage), limit.GetOr(DefaultLimit))
    case Err(_) => Reply(s, SERVER_ERROR, ServerErrorMessage)
    case Ok(p) => Done(s, OK, UsersRetrieved, p)
  }

  /** `GET /donations`: the donations matching the status filter, newest
      first, one page at a time. */
  function ListDonations(s: Store, order: seq<Id>, status: Option<string>, page: Option<int>, limit: Option<nat>)
    : (o: Outcome<Page<Donation>>)
    ensures o.store == s
    ensures o.code == OK <==> !(page.GetOr(DefaultPage) < 1 && limit.GetOr(DefaultLimit) > 0)
    ensures o.code != OK ==> o == Reply(s, SERVER_ERROR, ServerErrorMessage)
    ensures o.code == OK ==> o.message == DonationsRetrieved && o.body.Some?
    ensures o.code == OK ==> forall d :: d in o.body.value.items ==>
              d in s.donations.Values && StatusFilter(status)(d)
    ensures o.code == OK ==>
              var ids := Select(order, s.donations, StatusFilter(status));
              var skip := Skip(page.GetOr(DefaultPage), limit.GetOr(DefaultLimit));
              && o.body.value.total == |ids| && o.body.value.page == page.GetOr(DefaultPage)
              && o.body.value.pages == PageCount(|ids|, limit.GetOr(DefaultLimit))
              && forall i :: 0 <= i < |o.body.value.items| ==>
                   0 <= skip + i < |ids| && o.body.value.items[i] == s.donations[ids[skip + i]]
    ensures o.code == OK && ListsEach(order, s.donations) ==>
              o.body.value.total == |Matching(s.donations, StatusFilter(status))|
  {
    var ids := Select(order, s.donations, StatusFilter(status));
    var docs := Documents(ids, s.donations);
    assert ListsEach(order, s.donations) ==> |ids| == |Matching(s.donations, StatusFilter(status))| by {
      if ListsEach(order, s.donations) { SelectCountsMatches(order, s.donations, StatusFilter(status)); }
    }
    match Paginate(docs, page.GetOr(DefaultPage), limit.GetOr(DefaultLimit))
    case Err(_) => Reply(s, SERVER_ERROR, ServerErrorMessage)
    case Ok(p) =>
      PageOfDocuments(ids, s.donations, page.GetOr(DefaultPage), limit.GetOr(DefaultLimit));
      Done(s, OK, DonationsRetrieved, p)
  }

  /** Paging through the user listing reaches every matching user: with a
      positive page size, each one is on some page within the page count. */
  lemma EveryMatchingUserIsListed(s: Store, order: seq<Id>, role: Option<string>, limit: nat, k: Id)
    requires limit > 0 && k in order && k in s.users && RoleFilter(role)(s.users[k])
    ensures exists p :: 1 <= p &&
              var o := ListUsers(s, order, role, Some(p), Some(limit));
              && o.code == OK && p <= o.body.value.pages.value && Public(k, s.users[k]) in o.body.value.items
  {
    var ids := Select(order, s.users, RoleFilter(role));
    var i :| 0 <= i < |ids| && ids[i] == k;
    var docs := PublicUsers(ids, s.users);
    EveryItemOnItsPage(docs, limit, i);
    var p := i / limit + 1;
    var o := ListUsers(s, order, role, Some(p), Some(limit));
    assert o.body.value == Paginate(docs, p, limit).value;
    assert o.body.value.items[i % limit] == Public(k, s.users[k]);
  }

  /** The same for the donation listing. */
  lemma EveryMatchingDonationIsListed(s: Store, order: seq<Id>, status: Option<string>, limit: nat, k: Id)
    requires limit > 0 && k in order && k in s.donations && StatusFilter(status)(s.donations[k])
    ensures exists p :: 1 <= p &&
              var o := ListDonations(s, order, status, Some(p), Some(limit));
              && o.code == OK && p <= o.body.value.pages.value && s.donations[k] in o.body.value.items
  {
    var ids := Select(order, s.donations, StatusFilter(status));
    var i :| 0 <= i < |ids| && ids[i] == k;
    var docs := Documents(ids, s.donations);
    EveryItemOnItsPage(docs, limit, i);
    var p := i / limit + 1;
    var o := ListDonations(s, order, status, Some(p), Some(limit));
    assert o.body.value == Paginate(docs, p, limit).value;
    assert o.body.value.items[i % limit] == s.donations[k];
  }

  // ---------------------------------------------------------------------
  // Dashboard counts

  const AllRoles: set<Role> := {DonorRole, PickupRole, AdminRole}
  const AllStatuses: set<DonationStatus> := {Available, PickedUp, Delivered, Expired}

  function UsersWithRole(users: map<Id, User>, r: Role): (ks: set<Id>)
    ensures ks <= users.Keys
    ensures forall k :: k in ks <==> k in users && users[k].role == r
  {
    set k | k in users && users[k].role == r
  }

  function DonationsWithStatus(donations: map<Id, Donation>, st: DonationStatus): (ks: set<Id>)
    ensures ks <= donations.Keys
    ensures forall k :: k in ks <==> k in donations && donations[k].status == st
  {
    set k | k in donations && donations[k].status == st
  }

  datatype Stats = Stats(
    totalUsers: nat,
    totalDonations: nat,
    totalPickups: nat,
    totalDropOffs: nat,
    usersByRole: map<Role, nat>,
    donationsByStatus: map<DonationStatus, nat>,
    recentDonations: seq<Donation>,
    recentUsers: seq<PublicUser>)

  function Take(ids: seq<Id>, n: nat): (r: seq<Id>)
    ensures |r| <= n && |r| <= |ids| && r == ids[..|r|]
    ensures |ids| >= n ==> |r| == n
  {
    if |ids| <= n then ids else ids[..n]
  }

  /** The `sort({ createdAt: -1 }).limit(10)` user list: the first ten ids
      of `order` that are stored, without passwords. */
  function RecentUsers(users: map<Id, User>, order: seq<Id>): (r: seq<PublicUser>)
    ensures |r| <= RecentCount
    ensures forall u :: u in r ==> u.id in users && u == Public(u.id, users[u.id])
    ensures ListsEach(order, users) ==>
              && |r| == (if |users| < RecentCount then |users| else RecentCount)
              && forall i :: 0 <= i < |r| && i < |order| ==> r[i] == Public(order[i], users[order[i]])
  {
    var ids := Select(Take(order, RecentCount), users, (u: User) => true);
    assert ListsEach(order, users) ==> |order| == |users| && ids == Take(order, RecentCount) by {
      if ListsEach(order, users) {
        ListsEachLength(order, users);
        SelectKeepsAll(Take(order, RecentCount), users, (u: User) => true);
      }
    }
    PublicUsers(ids, users)
  }

  /** The same for the ten most recent donations. */
  function RecentDonations(donations: map<Id, Donation>, order: seq<Id>): (r: seq<Donation>)
    ensures |r| <= RecentCount
    ensures forall d :: d in r ==> d in donations.Values
    ensures ListsEach(order, donations) ==>
              && |r| == (if |donations| < RecentCount then |donations| else RecentCount)
              && forall i :: 0 <= i < |r| && i < |order| ==> r[i] == donations[order[i]]
  {
    var ids := Select(Take(order, RecentCount), donations, (d: Donation) => true);
    assert ListsEach(order, donations) ==> |order| == |donations| && ids == Take(order, RecentCount) by {
      if ListsEach(order, donations) {
        ListsEachLength(order, donations);
        SelectKeepsAll(Take(order, RecentCount), donations, (d: Donation) => true);
      }
    }
    var r := Documents(ids, donations);
    assert forall i :: 0 <= i < |r| ==> r[i] == donations[ids[i]] && r[i] in donations.Values;
    r
  }

  /** `GET /stats`. The `$group` stages report a role or a status only when
      some document has it, so absent keys mean zero. */
  function AdminStats(s: Store, userOrder: seq<Id>, donationOrder: seq<Id>): (o: Outcome<Stats>)
    ensures o.store == s && o.code == OK && o.body.Some?
    ensures var st := o.body.value;
            && st.totalUsers == |s.users| && st.totalDonations == |s.donations|
            && st.totalPickups == |s.pickups| && st.totalDropOffs == |s.dropOffs|
            && (forall r :: r in st.usersByRole <==> UsersWithRole(s.users, r) != {})
            && (forall r :: r in st.usersByRole ==> st.usersByRole[r] == |UsersWithRole(s.users, r)|)
            && (forall x :: x in st.donationsByStatus <==> DonationsWithStatus(s.donations, x) != {})
            && (forall x :: x in st.donationsByStatus ==> st.donationsByStatus[x] == |DonationsWithStatus(s.donations, x)|)
    ensures o.body.value.recentUsers == RecentUsers(s.users, userOrder)
    ensures o.body.value.recentDonations == RecentDonations(s.donations, donationOrder)
  {
    var byRole := map r | r in AllRoles && UsersWithRole(s.users, r) != {} :: |UsersWithRole(s.users, r)|;
    var byStatus := map x | x in AllStatuses && DonationsWithStatus(s.donations, x) != {}
                          :: |DonationsWithStatus(s.donations, x)|;
    Done(s, OK, "", Stats(|s.users|, |s.donations|, |s.pickups|, |s.dropOffs|,
                          byRole, byStatus, RecentDonations(s.donations, donationOrder), RecentUsers(s.users, userOrder)))
  }

  /** Every user has exactly one role, so the per-role counts add up to the
      number of users. */
  lemma RoleCountsAddUp(users: map<Id, User>)
    ensures |UsersWithRole(users, DonorRole)| + |UsersWithRole(users, PickupRole)|
            + |UsersWithRole(users, AdminRole)| == |users|
  {
    var d, p, a := UsersWithRole(users, DonorRole), UsersWithRole(users, PickupRole), UsersWithRole(users, AdminRole);
    assert d * p == {} && (d + p) * a == {};
    assert d + p + a == users.Keys;
  }

  /** The per-status counts add up to the number of donations. */
  lemma StatusCountsAddUp(donations: map<Id, Donation>)
    ensures |DonationsWithStatus(donations, Available)| + |DonationsWithStatus(donations, PickedUp)|
            + |DonationsWithStatus(donations, Delivered)| + |DonationsWithStatus(donations, Expired)|
            == |donations|
  {
    var a, p := DonationsWithStatus(donations, Available), DonationsWithStatus(donations, PickedUp);
    var d, e := DonationsWithStatus(donations, Delivered), DonationsWithStatus(donations, Expired);
    assert a * p == {} && (a + p) * d == {} && (a + p + d) * e == {};
    assert a + p + d + e == donations.Keys;
  }

  /** A role or status the dashboard leaves out has no documents. */
  function CountOf<K>(counts: map<K, nat>, key: K): nat {
    if key in counts then counts[key] else 0
  }

  /** The dashboard's per-role and per-status figures add up to its totals:
      the groups that are left out are exactly the empty ones. */
  lemma DashboardCountsAddUp(s: Store, userOrder: seq<Id>, donationOrder: seq<Id>)
    ensures var st := AdminStats(s, userOrder, donationOrder).body.value;
            && CountOf(st.usersByRole, DonorRole) + CountOf(st.usersByRole, PickupRole)
               + CountOf(st.usersByRole, AdminRole) == st.totalUsers
            && CountOf(st.donationsByStatus, Available) + CountOf(st.donationsByStatus, PickedUp)
               + CountOf(st.donationsByStatus, Delivered) + CountOf(st.donationsByStatus, Expired)
               == st.totalDonations
  {
    RoleCountsAddUp(s.users);
    StatusCountsAddUp(s.donations);
  }

  // ---------------------------------------------------------------------
  // Users

  /** `PUT /users/:id/role`: the role must name one of the three roles and
      the user must exist; the update runs no validators. */
  function UpdateRole(s: Store, id: Id, role: Option<string>): (o: Outcome<PublicUser>)
    ensures o.code == OK <==> Truthy(role) && ParseRole(role.value).Some? && id in s.users
    ensures (!Truthy(role) || ParseRole(role.value).None?) ==> o == Reply(s, BAD_REQUEST, InvalidRole)
    ensures (Truthy(role) && ParseRole(role.value).Some? && id !in s.users) ==> o == Reply(s, NOT_FOUND, UserNotFound)
    ensures o.code == OK ==>
              && o.store == s.(users := s.users[id := s.users[id].(role := ParseRole(role.value).value)])
              && o.body == Some(Public(id, o.store.users[id]))
              && RoleName(o.body.value.role) == role.value
    ensures o.code != OK ==> o.store == s
  {
    if !Truthy(role) || ParseRole(role.value).None? then Reply(s, BAD_REQUEST, InvalidRole)
    else if id !in s.users then Reply(s, NOT_FOUND, UserNotFound)
    else
      var u := s.users[id].(role := ParseRole(role.value).value);
      Done(s.(users := s.users[id := u]), OK, RoleUpdated, Public(id, u))
  }

  /** A role change keeps email addresses unique and every user valid. */
  lemma UpdateRoleKeepsUsersValid(s: Store, id: Id, role: Option<string>)
    requires EmailsUnique(s.users)
    requires forall k :: k in s.users ==> ValidUser(s.users[k])
    ensures EmailsUnique(UpdateRole(s, id, role).store.users)
    ensures forall k :: k in UpdateRole(s, id, role).store.users ==> ValidUser(UpdateRole(s, id, role).store.users[k])
  {
  }

  /** `DELETE /users/:id`: removes the account only; the user's donations,
      pickups and reviews stay behind. */
  function DeleteUser(s: Store, id: Id): (o: Outcome<()>)
    ensures id !in s.users ==> o == Reply(s, NOT_FOUND, UserNotFound)
    ensures id in s.users ==> o.code == OK && o.message == UserDeleted
    ensures o.store.users.Keys == s.users.Keys - {id}
    ensures forall k :: k in o.store.users ==> o.store.users[k] == s.users[k]
    ensures o.store.donations == s.donations && o.store.pickups == s.pickups
    ensures o.store.reviews == s.reviews && o.store.dropOffs == s.dropOffs
  {
    if id !in s.users then Reply(s, NOT_FOUND, UserNotFound)
    else Reply(s.(users := s.users - {id}), OK, UserDeleted)
  }

  /** Deleting an account keeps addresses unique and every remaining user valid. */
  lemma DeleteUserKeepsUsersValid(s: Store, id: Id)
    requires EmailsUnique(s.users)
    requires forall k :: k in s.users ==> ValidUser(s.users[k])
    ensures EmailsUnique(DeleteUser(s, id).store.users)
    ensures forall k :: k in DeleteUser(s, id).store.users ==> ValidUser(DeleteUser(s, id).store.users[k])
  {
  }

  /** Once an account is deleted, `GET /me` with a token still naming it
      answers 404, and so does a second deletion. */
  lemma DeletedUserHasNoProfile(s: Store, id: Id, c: Claims)
    requires c.userId == id
    ensures var s1 := DeleteUser(s, id).store;
            && AuthRoutes.Me(s1, c) == Reply(s1, NOT_FOUND, AuthRoutes.UserNotFound)
            && DeleteUser(s1, id) == Reply(s1, NOT_FOUND, UserNotFound)
  {
  }

  // ---------------------------------------------------------------------
  // Drop-off points

  /** `POST /dropoffs`: name and address must be truthy; missing or zero
      coordinates become 0; a schema failure (a blank name after trimming,
      a coordinate out of range) is answered as a server error. */
  function CreateDropOff(s: Store, name: Option<string>, address: Option<string>,
                         latitude: Option<real>, longitude: Option<real>, newId: Id): (o: Outcome<DropOff>)
    requires newId !in s.dropOffs
    ensures (!Truthy(name) || !Truthy(address)) ==> o == Reply(s, BAD_REQUEST, NameAndAddressRequired)
    ensures o.code == CREATED <==> && Truthy(name) && Truthy(address)
                                   && Trim(name.value) != "" && Trim(address.value) != ""
                                   && ValidLatitude(OrZero(latitude)) && ValidLongitude(OrZero(longitude))
    ensures o.code == CREATED ==>
              && o.body.Some? && ValidDropOff(o.body.value)
              && o.body.value.location == Location(OrZero(latitude), OrZero(longitude))
              && o.store == s.(dropOffs := s.dropOffs[newId := o.body.value])
    ensures Truthy(name) && Truthy(address) && o.code != CREATED ==> o == Reply(s, SERVER_ERROR, ServerErrorMessage)
  {
    if !Truthy(name) || !Truthy(address) then Reply(s, BAD_REQUEST, NameAndAddressRequired)
    else match NewDropOff(name, address, Some(OrZero(latitude)), Some(OrZero(longitude)))
      case Err(_) => Reply(s, SERVER_ERROR, ServerErrorMessage)
      case Ok(d) => Done(s.(dropOffs := s.dropOffs[newId := d]), CREATED, DropOffCreated, d)
  }

  /** A blank name passes the handler's own check but fails the schema, and
      the answer is then a 500 rather than a 400. */
  lemma BlankDropOffNameIsServerError(s: Store, address: string, newId: Id)
    requires newId !in s.dropOffs && address != "" && Trim(address) != ""
    ensures CreateDropOff(s, Some(" "), Some(address), None, None, newId).code == SERVER_ERROR
  {
    assert Trim(" ") == "" by { TrimEmptyIffAllSpace(" "); }
  }

  /** `PUT /dropoffs/:id`: truthy name and address replace the stored ones
      (trimmed by the setters); the location is replaced only when both
      coordinates are given. No validator runs. */
  function UpdateDropOff(s: Store, id: Id, name: Option<string>, address: Option<string>,
                         latitude: Option<real>, longitude: Option<real>): (o: Outcome<DropOff>)
    ensures id !in s.dropOffs ==> o == Reply(s, NOT_FOUND, DropOffNotFound)
    ensures id in s.dropOffs ==>
              && o.code == OK && o.body.Some?
              && o.store == s.(dropOffs := s.dropOffs[id := o.body.value])
              && o.body.value.name == (if Truthy(name) then Trim(name.value) else s.dropOffs[id].name)
              && o.body.value.address == (if Truthy(address) then Trim(address.value) else s.dropOffs[id].address)
              && o.body.value.location == (if latitude.Some? && longitude.Some?
                                           then Location(latitude.value, longitude.value)
                                           else s.dropOffs[id].location)
  {
    if id !in s.dropOffs then Reply(s, NOT_FOUND, DropOffNotFound)
    else
      var d := s.dropOffs[id];
      var d1 := d.(name := if Truthy(name) then Trim(name.value) else d.name,
                   address := if Truthy(address) then Trim(address.value) else d.address,
                   location := if latitude.Some? && longitude.Some? then Location(latitude.value, longitude.value)
                               else d.location);
      Done(s.(dropOffs := s.dropOffs[id := d1]), OK, DropOffUpdated, d1)
  }

  /** Because the update skips the schema validators, it can store a point
      that creation would have refused. */
  lemma UpdateDropOffCanBreakValidity(s: Store, id: Id)
    requires id in s.dropOffs && ValidDropOff(s.dropOffs[id])
    ensures var o := UpdateDropOff(s, id, None, None, Some(91.0), Some(0.0));
            o.code == OK && !ValidDropOff(o.store.dropOffs[id])
  {
  }

  /** An update with nothing to change leaves the store as it was. */
  lemma EmptyDropOffUpdateChangesNothing(s: Store, id: Id)
    requires id in s.dropOffs
    ensures UpdateDropOff(s, id, None, None, None, None).store == s
  {
    assert s.dropOffs[id := s.dropOffs[id]] == s.dropOffs;
  }

  /** `DELETE /dropoffs/:id`. */
  function DeleteDropOff(s: Store, id: Id): (o: Outcome<()>)
    ensures id !in s.dropOffs ==> o == Reply(s, NOT_FOUND, DropOffNotFound)
    ensures id in s.dropOffs ==> o.code == OK && o.message == DropOffDeleted
    ensures o.store.dropOffs.Keys == s.dropOffs.Keys - {id}
    ensures forall k :: k in o.store.dropOffs ==> o.store.dropOffs[k] == s.dropOffs[k]
    ensures o.store.users == s.users && o.store.donations == s.donations
    ensures o.store.pickups == s.pickups && o.store.reviews == s.reviews
  {
    if id !in s.dropOffs then Reply(s, NOT_FOUND, DropOffNotFound)
    else Reply(s.(dropOffs := s.dropOffs - {id}), OK, DropOffDeleted)
  }

  /** Deleting a point that was just added gives back the store as it was. */
  lemma DeleteUndoesInsert(s: Store, id: Id, d: DropOff)
    requires id !in s.dropOffs
    ensures var s1 := s.(dropOffs := s.dropOffs[id := d]);
            DeleteDropOff(s1, id).code == OK && DeleteDropOff(s1, id).store == s
  {
    assert s.dropOffs[id := d] - {id} == s.dropOffs;
  }

  /** Deleting a point right after creating it gives back the store as it
      was, and a second deletion finds nothing. */
  lemma CreateThenDeleteDropOff(s: Store, name: Option<string>, address: Option<string>,
                                latitude: Option<real>, longitude: Option<real>, newId: Id)
    requires newId !in s.dropOffs
    requires Truthy(name) && Truthy(address) && Trim(name.value) != "" && Trim(address.value) != ""
    requires ValidLatitude(OrZero(latitude)) && ValidLongitude(OrZero(longitude))
    ensures var s1 := CreateDropOff(s, name, address, latitude, longitude, newId).store;
            && DeleteDropOff(s1, newId).code == OK
            && DeleteDropOff(s1, newId).store == s
            && DeleteDropOff(DeleteDropOff(s1, newId).store, newId).code == NOT_FOUND
  {
    var o := CreateDropOff(s, name, address, latitude, longitude, newId);
    assert o.store == s.(dropOffs := s.dropOffs[newId := o.body.value]);
    DeleteUndoesInsert(s, newId, o.body.value);
  }

  // ---------------------------------------------------------------------
  // Manual expiry

  /** `POST /donations/expire`: the same bulk update as the periodic job,
      answering with the number of documents it changed. */
  function ExpireDonations(s: Store, now: Time): (o: Outcome<nat>)
    ensures o.code == OK && o.message == ExpiredUpdated
    ensures o.store.donations.Keys == s.donations.Keys
    ensures o.store.users == s.users && o.store.pickups == s.pickups
    ensures o.store.reviews == s.reviews && o.store.dropOffs == s.dropOffs
    ensures forall k :: k in s.donations ==>
              o.store.donations[k] == (if k in Matched(s.donations, now)
                                       then s.donations[k].(status := Expired) else s.donations[k])
    ensures forall k :: k in o.store.donations && o.store.donations[k].status == Available
              ==> !IsExpired(o.store.donations[k], now)
    ensures o.body == Some(|Matched(s.donations, now)|)
  {
    var (s1, n) := MarkExpiredDonations(s, now);
    Done(s1, OK, ExpiredUpdated, n)
  }

  /** Pressing the button twice at the same moment changes nothing the second time. */
  lemma ExpireTwiceReportsZero(s: Store, now: Time)
    ensures var s1 := ExpireDonations(s, now).store;
            ExpireDonations(s1, now).body == Some(0) && ExpireDonations(s1, now).store == s1
  {
    SweepIdempotent(s.donations, now, now);
  }
}

=== FILE: auth_gate.dfy ===
/** The `auth(roles)` middleware: take the token from the `Authorization`
    header, verify it, and admit the caller when its role is one of the
    allowed roles (or when no roles are listed). Signature checking is a
    parameter: `verify` returns the payload of a valid token. */
module AuthGate {
  import opened Common
  import opened Text

  /** The JWT payload the login handler signs. */
  datatype Claims = Claims(userId: Id, role: Role, name: string)

  datatype Gate = Denied(code: int, message: string) | Granted(user: Claims)

  const NoToken := "No token, authorization denied"
  const BadToken := "Token is not valid"
  const AccessDenied := "Access denied"
  const BearerPrefix := "Bearer "

  /** The header with its first `Bearer ` removed, wherever it occurs. */
  function BearerToken(header: string): (t: string)
    ensures (forall j :: !OccursAt(header, BearerPrefix, j)) ==> t == header
    ensures forall i :: OccursAt(header, BearerPrefix, i) && (forall j :: 0 <= j < i ==> !OccursAt(header, BearerPrefix, j))
              ==> t == header[..i] + header[i + |BearerPrefix|..]
    ensures |t| <= |header|
  {
    ReplaceFirst(header, BearerPrefix, "")
  }

  predicate RoleAllowed(roles: seq<Role>, role: Role) {
    |roles| == 0 || role in roles
  }

  function Authenticate(header: Option<string>, verify: string -> Option<Claims>, roles: seq<Role>): (g: Gate)
    ensures header.None? ==> g == Denied(UNAUTHORIZED, NoToken)
    ensures header.Some? && BearerToken(header.value) == "" ==> g == Denied(UNAUTHORIZED, NoToken)
    ensures (header.Some? && BearerToken(header.value) != ""
             && verify(BearerToken(header.value)).None?) ==> g == Denied(UNAUTHORIZED, BadToken)
    ensures g.Granted? <==> && header.Some? && BearerToken(header.value) != ""
                            && verify(BearerToken(header.value)).Some?
                            && RoleAllowed(roles, verify(BearerToken(header.value)).value.role)
    ensures g.Granted? ==> g.user == verify(BearerToken(header.value)).value
    ensures g.Denied? ==> g.code == UNAUTHORIZED || (g.code == FORBIDDEN && g.message == AccessDenied)
  {
    if header.None? then Denied(UNAUTHORIZED, NoToken)
    else
      var token := BearerToken(header.value);
      if token == "" then Denied(UNAUTHORIZED, NoToken)
      else match verify(token)
        case None => Denied(UNAUTHORIZED, BadToken)
        case Some(c) =>
          if |roles| > 0 && c.role !in roles then Denied(FORBIDDEN, AccessDenied)
          else Granted(c)
  }

  /** A well-formed `Bearer <token>` header admits exactly the payload of
      `<token>` when the role is allowed, and is refused with 403 otherwise. */
  lemma BearerHeaderAdmits(token: string, verify: string -> Option<Claims>, roles: seq<Role>, c: Claims)
    requires token != "" && verify(token) == Some(c)
    ensures RoleAllowed(roles, c.role) ==> Authenticate(Some(BearerPrefix + token), verify, roles) == Granted(c)
    ensures !RoleAllowed(roles, c.role) ==> Authenticate(Some(BearerPrefix + token), verify, roles) == Denied(FORBIDDEN, AccessDenied)
  {
    ReplaceFirstPrefix(BearerPrefix, token);
  }

  /** A header that is exactly `Bearer ` carries no token. */
  lemma BareBearerHasNoToken(verify: string -> Option<Claims>, roles: seq<Role>)
    ensures Authenticate(Some(BearerPrefix), verify, roles) == Denied(UNAUTHORIZED, NoToken)
  {
    ReplaceFirstPrefix(BearerPrefix, "");
    assert BearerPrefix + "" == BearerPrefix;
  }

  /** The strip is not anchored at the start of the header: after any text
      `p` that does not already begin a `Bearer `, the first `Bearer ` is
      cut out where it stands and `p` stays in the token. */
  lemma BearerStripIsUnanchored(p: string, token: string)
    requires forall j :: 0 <= j < |p| ==> !OccursAt(p + BearerPrefix + token, BearerPrefix, j)
    ensures BearerToken(p + BearerPrefix + token) == p + token
  {
    var h := p + BearerPrefix + token;
    var i := |p|;
    assert h[i..i + |BearerPrefix|] == BearerPrefix;
    assert OccursAt(h, BearerPrefix, i);
    assert h[..i] == p && h[i + |BearerPrefix|..] == token;
  }

  /** For instance, `xBearer abc` yields the token `xabc`. */
  lemma BearerStripExample()
    ensures BearerToken("xBearer abc") == "xabc"
  {
    var p, token := "x", "abc";
    assert p + BearerPrefix + token == "xBearer abc";
    assert !OccursAt(p + BearerPrefix + token, BearerPrefix, 0) by {
      assert (p + BearerPrefix + token)[0] != BearerPrefix[0];
    }
    BearerStripIsUnanchored(p, token);
  }

  /** `auth()` with no roles admits every caller holding a valid token. */
  lemma EmptyRoleListAdmitsAnyValidToken(header: Option<string>, verify: string -> Option<Claims>)
    requires header.Some? && BearerToken(header.value) != ""
    requires verify(BearerToken(header.value)).Some?
    ensures Authenticate(header, verify, []).Granted?
  {
  }
}

=== FILE: auth_routes.dfy ===
/** `/api/auth`: registration, login and the caller's own profile.
    Password hashing and comparison are parameters: `hash` stands for
    bcrypt's salted hash and `matches` for its comparison. Login answers
    with the payload it signs and its lifetime instead of a signed token. */
module AuthRoutes {
  import opened Common
  import opened Text
  import opened UserModel
  import opened AuthGate
  import opened Stores

  const FieldsRequired := "Name, email, password, and role are required"
  const InvalidRoleChoice := "Invalid role. Must be donor, pickup, or admin"
  const UserExists := "User already exists"
  const UserRegistered := "User registered successfully"
  const CredentialsRequired := "Email and password are required"
  const InvalidCredentials := "Invalid credentials"
  const LoginSuccessful := "Login successful"
  const UserNotFound := "User not found"

  /** `expiresIn: '24h'`, in seconds. */
  const TokenLifetimeSeconds := 24 * 60 * 60

  /** The length of every bcrypt hash string. */
  const BcryptHashLength := 60

  datatype RegisterRequest = RegisterRequest(
    name: Option<string>,
    email: Option<string>,
    password: Option<string>,
    role: Option<string>,
    latitude: Option<real>,
    longitude: Option<real>)

  /** The handler's own checks, in order, before any write. */
  predicate FieldsPresent(q: RegisterRequest) {
    Truthy(q.name) && Truthy(q.email) && Truthy(q.password) && Truthy(q.role)
  }

  /** The document the handler builds once its checks pass: setters trim
      the name and normalise the email; the password field holds the hash. */
  function NewUser(q: RegisterRequest, hash: string -> string): (u: User)
    requires FieldsPresent(q) && ParseRole(q.role.value).Some?
    ensures u.email == NormalizeEmail(q.email.value) && u.password == hash(q.password.value)
    ensures RoleName(u.role) == q.role.value && u.name == Trim(q.name.value)
    ensures u.location == Location(OrZero(q.latitude), OrZero(q.longitude))
  {
    User(Trim(q.name.value), NormalizeEmail(q.email.value), hash(q.password.value),
         ParseRole(q.role.value).value, Location(OrZero(q.latitude), OrZero(q.longitude)))
  }

  /** `POST /register` as written; `strict` adds the plaintext length check
      the corrected handler performs before hashing. */
  function RegisterWith(s: Store, q: RegisterRequest, hash: string -> string, newId: Id, strict: bool): (o: Outcome<()>)
    requires newId !in s.users
    ensures !FieldsPresent(q) ==> o == Reply(s, BAD_REQUEST, FieldsRequired)
    ensures FieldsPresent(q) && ParseRole(q.role.value).None? ==> o == Reply(s, BAD_REQUEST, InvalidRoleChoice)
    ensures (FieldsPresent(q) && ParseRole(q.role.value).Some? && EmailTaken(s.users, NormalizeEmail(q.email.value)))
              ==> o == Reply(s, BAD_REQUEST, UserExists)
    ensures o.code == CREATED <==>
              && FieldsPresent(q) && ParseRole(q.role.value).Some?
              && !EmailTaken(s.users, NormalizeEmail(q.email.value))
              && (strict ==> Utf16Length(q.password.value) >= MinPasswordLength)
              && ValidUser(NewUser(q, hash))
    ensures o.code == CREATED ==> o.store == s.(users := s.users[newId := NewUser(q, hash)])
    ensures o.code != CREATED ==> o.store == s
  {
    if !FieldsPresent(q) then Reply(s, BAD_REQUEST, FieldsRequired)
    else if ParseRole(q.role.value).None? then Reply(s, BAD_REQUEST, InvalidRoleChoice)
    else if EmailTaken(s.users, NormalizeEmail(q.email.value)) then Reply(s, BAD_REQUEST, UserExists)
    else if strict && Utf16Length(q.password.value) < MinPasswordLength then Invalid(s, [PasswordTooShort])
    else
      var u := NewUser(q, hash);
      var errs := UserViolations(u);
      if errs != [] then Invalid(s, errs)
      else Reply(s.(users := s.users[newId := u]), CREATED, UserRegistered)
  }

  /** The handler as written. */
  function Register(s: Store, q: RegisterRequest, hash: string -> string, newId: Id): (o: Outcome<()>)
    requires newId !in s.users
    ensures o.code == CREATED ==> FieldsPresent(q) && newId in o.store.users && ValidUser(o.store.users[newId])
                                  && o.store.users[newId].password == hash(q.password.value)
    ensures o.code == CREATED ==> !EmailTaken(s.users, o.store.users[newId].email)
    ensures o.code != CREATED ==> o.store == s
  {
    RegisterWith(s, q, hash, newId, false)
  }

  /** Registration keeps addresses unique and every stored user valid. */
  lemma RegisterKeepsUsersValid(s: Store, q: RegisterRequest, hash: string -> string, newId: Id, strict: bool)
    requires newId !in s.users
    requires EmailsUnique(s.users) && forall k :: k in s.users ==> ValidUser(s.users[k])
    ensures EmailsUnique(RegisterWith(s, q, hash, newId, strict).store.users)
    ensures forall k :: k in RegisterWith(s, q, hash, newId, strict).store.users
              ==> ValidUser(RegisterWith(s, q, hash, newId, strict).store.users[k])
  {
  }

  /** Two registrations that differ only in the case or surrounding blanks
      of the email cannot both succeed. */
  lemma SecondRegistrationWithSameAddressRefused(s: Store, q: RegisterRequest, q2: RegisterRequest,
                                                 hash: string -> string, newId: Id, newId2: Id)
    requires newId !in s.users
    requires RegisterWith(s, q, hash, newId, false).code == CREATED
    requires newId2 !in RegisterWith(s, q, hash, newId, false).store.users
    requires FieldsPresent(q2) && ParseRole(q2.role.value).Some?
    requires NormalizeEmail(q2.email.value) == NormalizeEmail(q.email.value)
    ensures var s1 := RegisterWith(s, q, hash, newId, false).store;
            RegisterWith(s1, q2, hash, newId2, false) == Reply(s1, BAD_REQUEST, UserExists)
  {
    var s1 := RegisterWith(s, q, hash, newId, false).store;
    assert s1.users[newId].email == NormalizeEmail(q2.email.value);
  }

  /** The schema's minimum length is checked against the stored hash, which
      always has 60 characters, so a password of any length is accepted. */
  lemma ShortPasswordAccepted(s: Store, q: RegisterRequest, hash: string -> string, newId: Id)
    requires newId !in s.users
    requires FieldsPresent(q) && ParseRole(q.role.value).Some?
    requires !EmailTaken(s.users, NormalizeEmail(q.email.value))
    requires Trim(q.name.value) != "" && MatchesEmailPattern(NormalizeEmail(q.email.value))
    requires Utf16Length(hash(q.password.value)) == BcryptHashLength
    requires Utf16Length(q.password.value) < MinPasswordLength
    ensures Register(s, q, hash, newId).code == CREATED
  {
  }

  /** The corrected handler refuses a short password with the schema's own
      message and stores no user. */
  function RegisterStrict(s: Store, q: RegisterRequest, hash: string -> string, newId: Id): (o: Outcome<()>)
    requires newId !in s.users
    ensures o.code == CREATED ==> && FieldsPresent(q) && Utf16Length(q.password.value) >= MinPasswordLength
                                  && newId in o.store.users && ValidUser(o.store.users[newId])
    ensures (FieldsPresent(q) && ParseRole(q.role.value).Some? && !EmailTaken(s.users, NormalizeEmail(q.email.value))
             && Utf16Length(q.password.value) < MinPasswordLength) ==> o == Invalid(s, [PasswordTooShort])
    ensures o.code != CREATED ==> o.store == s
  {
    RegisterWith(s, q, hash, newId, true)
  }

  /** The server accepts `admin` from anyone who registers. */
  lemma AnyoneMayRegisterAsAdmin(s: Store, q: RegisterRequest, hash: string -> string, newId: Id)
    requires newId !in s.users
    requires q.role == Some("admin")
    requires RegisterWith(s, q, hash, newId, false).code == CREATED
    ensures RegisterWith(s, q, hash, newId, false).store.users[newId].role == AdminRole
  {
  }

  /** What a successful login answers: the signed payload, its lifetime,
      and the role and name. */
  datatype LoginReply = LoginReply(claims: Claims, expiresIn: nat, role: Role, name: string)

  /** `POST /login`. The unique index on email means at most one account
      answers to an address. */
  function Login(s: Store, email: Option<string>, password: Option<string>, matches: (string, string) -> bool)
    : (o: Outcome<LoginReply>)
    requires EmailsUnique(s.users)
    ensures o.store == s
    ensures !Truthy(email) || !Truthy(password) ==> o == Reply(s, BAD_REQUEST, CredentialsRequired)
    ensures o.code == OK <==> && Truthy(email) && Truthy(password)
                              && exists k :: k in s.users && s.users[k].email == NormalizeEmail(email.value)
                                              && matches(password.value, s.users[k].password)
    ensures o.code != OK && Truthy(email) && Truthy(password) ==> o == Reply(s, BAD_REQUEST, InvalidCredentials)
    ensures o.code == OK ==>
              && o.message == LoginSuccessful && o.body.Some?
              && var k := o.body.value.claims.userId;
              && k in s.users && s.users[k].email == NormalizeEmail(email.value)
              && matches(password.value, s.users[k].password)
              && o.body.value.claims == Claims(k, s.users[k].role, s.users[k].name)
              && o.body.value.role == s.users[k].role && o.body.value.name == s.users[k].name
              && o.body.value.expiresIn == TokenLifetimeSeconds
  {
    if !Truthy(email) || !Truthy(password) then Reply(s, BAD_REQUEST, CredentialsRequired)
    else
      var e := NormalizeEmail(email.value);
      if !EmailTaken(s.users, e) then Reply(s, BAD_REQUEST, InvalidCredentials)
      else
        var k :| k in s.users && s.users[k].email == e;
        if !matches(password.value, s.users[k].password) then Reply(s, BAD_REQUEST, InvalidCredentials)
        else
          var u := s.users[k];
          Done(s, OK, LoginSuccessful, LoginReply(Claims(k, u.role, u.name), TokenLifetimeSeconds, u.role, u.name))
  }

  /** `GET /me`: the caller's stored profile without the password. */
  function Me(s: Store, user: Claims): (o: Outcome<PublicUser>)
    ensures user.userId !in s.users ==> o == Reply(s, NOT_FOUND, UserNotFound)
    ensures user.userId in s.users ==> o.code == OK && o.body == Some(Public(user.userId, s.users[user.userId]))
    ensures o.store == s
  {
    if user.userId !in s.users then Reply(s, NOT_FOUND, UserNotFound)
    else Done(s, OK, "", Public(user.userId, s.users[user.userId]))
  }

  lemma AddingFreshAddressKeepsEmailsUnique(users: map<Id, User>, id: Id, u: User)
    requires EmailsUnique(users) && !EmailTaken(users, u.email)
    ensures EmailsUnique(users[id := u])
  {
  }

  /** A login with an address that normalises to a stored one and a
      password that account accepts admits exactly that account. */
  lemma LoginFindsAccount(s: Store, email: string, password: Option<string>, matches: (string, string) -> bool, k: Id)
    requires EmailsUnique(s.users)
    requires email != "" && Truthy(password)
    requires k in s.users && s.users[k].email == NormalizeEmail(email)
    requires matches(password.value, s.users[k].password)
    ensures var o := Login(s, Some(email), password, matches);
            o.code == OK && o.body.value.claims == Claims(k, s.users[k].role, s.users[k].name)
  {
  }

  /** The round trip through the three routes: after a registration, a
      login with the registered password and any spelling of the address
      that normalises to the stored one admits the new account with the
      role it chose, and `GET /me` with the resulting claims answers the
      registered profile. `matches` must accept a password against its own
      hash, as bcrypt's comparison does. */
  lemma RegisterThenLogin(s: Store, q: RegisterRequest, hash: string -> string, newId: Id, strict: bool,
                          matches: (string, string) -> bool, email: string)
    requires newId !in s.users && EmailsUnique(s.users)
    requires RegisterWith(s, q, hash, newId, strict).code == CREATED
    requires NormalizeEmail(email) == NormalizeEmail(q.email.value)
    requires matches(q.password.value, hash(q.password.value))
    ensures var s1 := RegisterWith(s, q, hash, newId, strict).store;
            && EmailsUnique(s1.users)
            && var o := Login(s1, Some(email), q.password, matches);
            && o.code == OK && o.body.value.claims.userId == newId
            && RoleName(o.body.value.role) == q.role.value
            && Me(s1, o.body.value.claims).body == Some(Public(newId, NewUser(q, hash)))
  {
    var u := NewUser(q, hash);
    var s1 := s.(users := s.users[newId := u]);
    assert RegisterWith(s, q, hash, newId, strict).store == s1 && ValidUser(u);
    AddingFreshAddressKeepsEmailsUnique(s.users, newId, u);
    LoginFindsAccount(s1, email, q.password, matches, newId);
  }
}

=== FILE: common.dfy ===
/** Vocabulary shared by every part of the model: optional request fields,
    results, document identifiers, instants, roles and the HTTP status codes
    the handlers answer with. */
module Common {

  /** A request field that may be absent (`undefined` in the JSON body). */
  datatype Option<+T> = None | Some(value: T) {
    function GetOr(default: T): T {
      match this
      case Some(v) => v
      case None => default
    }
  }

  datatype Result<+T, +E> = Ok(value: T) | Err(error: E)

  /** Document identifiers are opaque; natural numbers stand for ObjectIds. */
  type Id = nat

  /** Instants in milliseconds, compared the way JavaScript compares Dates. */
  type Time = int

  /** A latitude/longitude pair as the schemas store it. */
  datatype Location = Location(latitude: real, longitude: real)

  /** JavaScript truthiness of an optional string field (`!x` is false). */
  predicate Truthy(o: Option<string>) {
    o.Some? && o.value != ""
  }

  /** JavaScript truthiness of an optional number field: absent and 0 are falsy. */
  predicate TruthyNumber(o: Option<real>) {
    o.Some? && o.value != 0.0
  }

  /** `x || 0` on an optional number: the value when present and non-zero,
      otherwise 0 (a present 0 also yields 0, so the value is never lost). */
  function OrZero(o: Option<real>): (r: real)
    ensures o.Some? ==> r == o.value
    ensures o.None? ==> r == 0.0
  {
    if TruthyNumber(o) then o.value else 0.0
  }

  /** The messages of the validators that failed, in schema path order: one
      check per path, `None` when that path passed. */
  function Collect(checks: seq<Option<string>>): (r: seq<string>)
    ensures forall e :: e in r <==> Some(e) in checks
    ensures |r| <= |checks|
    ensures r == [] <==> forall c :: c in checks ==> c.None?
  {
    if checks == [] then []
    else
      var rest := Collect(checks[1..]);
      assert forall e :: Some(e) in checks <==> Some(e) == checks[0] || Some(e) in checks[1..];
      if checks[0].Some? then [checks[0].value] + rest else rest
  }

  /** A `required: [true, message]` validator: it fails, with its message,
      exactly when the value is missing. */
  function Required<T>(o: Option<T>, message: string): (r: Option<string>)
    ensures r.None? <==> o.Some?
    ensures r.Some? ==> r.value == message
  {
    if o.None? then Some(message) else None
  }

  // HTTP status codes the handlers send.
  const OK := 200
  const CREATED := 201
  const BAD_REQUEST := 400
  const UNAUTHORIZED := 401
  const FORBIDDEN := 403
  const NOT_FOUND := 404
  const SERVER_ERROR := 500

  const ServerErrorMessage := "Server error"
  const ValidationErrorMessage := "Validation error"

  /** The three account roles of the system. */
  datatype Role = DonorRole | PickupRole | AdminRole

  function RoleName(r: Role): string {
    match r
    case DonorRole => "donor"
    case PickupRole => "pickup"
    case AdminRole => "admin"
  }

  /** The role enum check (`validRoles.includes(role)` and the schema enum):
      accepts exactly the names of the three roles. */
  function ParseRole(s: string): (r: Option<Role>)
    ensures r.Some? ==> RoleName(r.value) == s
    ensures r.None? ==> forall v: Role :: RoleName(v) != s
  {
    if s == "donor" then Some(DonorRole)
    else if s == "pickup" then Some(PickupRole)
    else if s == "admin" then Some(AdminRole)
    else None
  }
}

=== FILE: donation.dfy ===
/** The donation schema: its enums, its field validators, `isExpired` and
    the pre-save hook that forces the expired status. */
module DonationModel {
  import opened Common
  import opened Text

  datatype Category = HotMeal | Packaged | RawIngredients

  function CategoryName(c: Category): string {
    match c
    case HotMeal => "hot_meal"
    case Packaged => "packaged"
    case RawIngredients => "raw_ingredients"
  }

  /** The category enum validator. */
  function ParseCategory(s: string): (r: Option<Category>)
    ensures r.Some? ==> CategoryName(r.value) == s
    ensures r.None? ==> forall c: Category :: CategoryName(c) != s
  {
    if s == "hot_meal" then Some(HotMeal)
    else if s == "packaged" then Some(Packaged)
    else if s == "raw_ingredients" then Some(RawIngredients)
    else None
  }

  /** The lifecycle status of a donation; a new document starts `Available`. */
  datatype DonationStatus = Available | PickedUp | Delivered | Expired

  function DonationStatusName(st: DonationStatus): string {
    match st
    case Available => "available"
    case PickedUp => "picked_up"
    case Delivered => "delivered"
    case Expired => "expired"
  }

  /** The status enum validator. */
  function ParseDonationStatus(s: string): (r: Option<DonationStatus>)
    ensures r.Some? ==> DonationStatusName(r.value) == s
    ensures r.None? ==> forall st: DonationStatus :: DonationStatusName(st) != s
  {
    if s == "available" then Some(Available)
    else if s == "picked_up" then Some(PickedUp)
    else if s == "delivered" then Some(Delivered)
    else if s == "expired" then Some(Expired)
    else None
  }

  datatype Donation = Donation(
    donorId: Id,
    foodType: string,
    category: Category,
    quantity: real,
    expirationTime: Time,
    image: Option<string>,
    status: DonationStatus,
    location: Location)

  /** The fields a handler assigns before casting, setters and validation;
      an absent `status` takes the schema default. */
  datatype Draft = Draft(
    donorId: Id,
    foodType: Option<string>,
    category: Option<string>,
    quantity: Option<real>,
    expirationTime: Option<Time>,
    image: Option<string>,
    status: Option<string>,
    latitude: Option<real>,
    longitude: Option<real>)

  const FoodTypeRequired := "Food type is required"
  const CategoryRequired := "Category is required"
  const QuantityRequired := "Quantity is required"
  const QuantityTooSmall := "Quantity must be at least 1"
  const ExpirationNotFuture := "Expiration time must be in the future"
  /** `new Date(undefined)` is an invalid date, which fails the cast to Date. */
  const ExpirationCastFailed := "Cast to date failed for value \"Invalid Date\" at path \"expirationTime\""
  const LatitudeRequired := "Latitude is required"
  const LongitudeRequired := "Longitude is required"

  function CategoryInvalid(s: string): string {
    s + " is not a valid category"
  }

  function StatusInvalid(s: string): string {
    s + " is not a valid status"
  }

  function FoodTypeCheck(foodType: Option<string>): (r: Option<string>)
    ensures r.None? <==> foodType.Some? && foodType.value != ""
  {
    if foodType.None? || foodType.value == "" then Some(FoodTypeRequired) else None
  }

  function CategoryCheck(category: Option<string>): (r: Option<string>)
    ensures r.None? <==> category.Some? && ParseCategory(category.value).Some?
    ensures category.None? || category.value == "" ==> r == Some(CategoryRequired)
    ensures (category.Some? && category.value != "" && ParseCategory(category.value).None?)
              ==> r == Some(CategoryInvalid(category.value))
  {
    if category.None? || category.value == "" then Some(CategoryRequired)
    else if ParseCategory(category.value).None? then Some(CategoryInvalid(category.value))
    else None
  }

  function QuantityCheck(quantity: Option<real>): (r: Option<string>)
    ensures r.None? <==> quantity.Some? && quantity.value >= 1.0
    ensures quantity.None? ==> r == Some(QuantityRequired)
    ensures quantity.Some? && quantity.value < 1.0 ==> r == Some(QuantityTooSmall)
  {
    if quantity.None? then Some(QuantityRequired)
    else if quantity.value < 1.0 then Some(QuantityTooSmall)
    else None
  }

  /** The custom validator `value > new Date()`, evaluated at `now`. */
  function ExpirationCheck(expiration: Option<Time>, now: Time): (r: Option<string>)
    ensures r.None? <==> expiration.Some? && expiration.value > now
    ensures expiration.Some? && expiration.value <= now ==> r == Some(ExpirationNotFuture)
  {
    if expiration.None? then Some(ExpirationCastFailed)
    else if !(expiration.value > now) then Some(ExpirationNotFuture)
    else None
  }

  /** The enum validator of `status`; an absent status is the default `available`. */
  function StatusCheck(status: Option<string>): (r: Option<string>)
    ensures r.None? <==> status.None? || ParseDonationStatus(status.value).Some?
  {
    if status.Some? && ParseDonationStatus(status.value).None? then Some(StatusInvalid(status.value))
    else None
  }

  function MapTrim(o: Option<string>): (r: Option<string>)
    ensures r.Some? <==> o.Some?
    ensures r.Some? ==> r.value == Trim(o.value)
  {
    match o
    case None => None
    case Some(v) => Some(Trim(v))
  }

  /** Every validator of the schema passes for the draft at `now`
      (after the `trim` setters of `foodType`). */
  predicate DraftValid(dr: Draft, now: Time) {
    && dr.foodType.Some? && Trim(dr.foodType.value) != ""
    && dr.category.Some? && ParseCategory(dr.category.value).Some?
    && dr.quantity.Some? && dr.quantity.value >= 1.0
    && dr.expirationTime.Some? && dr.expirationTime.value > now
    && (dr.status.None? || ParseDonationStatus(dr.status.value).Some?)
    && dr.latitude.Some? && dr.longitude.Some?
  }

  /** The messages of the failing validators of a new document, in path
      order: none exactly when the draft is valid. */
  function DraftErrors(dr: Draft, now: Time): (errs: seq<string>)
    ensures errs == [] <==> DraftValid(dr, now)
    ensures dr.expirationTime.Some? && dr.expirationTime.value <= now ==> ExpirationNotFuture in errs
    ensures dr.quantity.Some? && dr.quantity.value < 1.0 ==> QuantityTooSmall in errs
    ensures (dr.category.Some? && dr.category.value != "" && ParseCategory(dr.category.value).None?)
              ==> CategoryInvalid(dr.category.value) in errs
  {
    var category := CategoryCheck(dr.category);
    var quantity := QuantityCheck(dr.quantity);
    var expiration := ExpirationCheck(dr.expirationTime, now);
    var checks := [FoodTypeCheck(MapTrim(dr.foodType)), category, quantity, expiration, StatusCheck(dr.status),
                   Required(dr.latitude, LatitudeRequired), Required(dr.longitude, LongitudeRequired)];
    assert checks[1] == category && checks[2] == quantity && checks[3] == expiration;
    Collect(checks)
  }

  /** Casting, setters and validation of a new document: either the stored
      donation, or the messages of every failing validator in path order. */
  function ValidateDraft(dr: Draft, now: Time): (r: Result<Donation, seq<string>>)
    ensures r.Ok? <==> DraftValid(dr, now)
    ensures r.Ok? ==> && r.value.donorId == dr.donorId
                      && r.value.foodType == Trim(dr.foodType.value)
                      && r.value.category == ParseCategory(dr.category.value).value
                      && r.value.quantity == dr.quantity.value
                      && r.value.expirationTime == dr.expirationTime.value
                      && r.value.image == MapTrim(dr.image)
                      && (dr.status.None? ==> r.value.status == Available)
                      && r.value.location == Location(dr.latitude.value, dr.longitude.value)
    ensures r.Err? ==> r.error != [] && r.error == DraftErrors(dr, now)
  {
    if !DraftValid(dr, now) then Err(DraftErrors(dr, now))
    else
      var status := if dr.status.Some? then ParseDonationStatus(dr.status.value).value else Available;
      Ok(Donation(
        dr.donorId,
        Trim(dr.foodType.value),
        ParseCategory(dr.category.value).value,
        dr.quantity.value,
        dr.expirationTime.value,
        MapTrim(dr.image),
        status,
        Location(dr.latitude.value, dr.longitude.value)))
  }

  /** `isExpired()`: the current time is past the expiration time. */
  predicate IsExpired(d: Donation, now: Time) {
    now > d.expirationTime
  }

  /** The pre-save hook: an expired donation is forced to `expired`,
      whatever its status was; otherwise the document is left alone. */
  function ExpiryHook(d: Donation, now: Time): (r: Donation)
    ensures IsExpired(d, now) ==> r.status == Expired
    ensures !IsExpired(d, now) ==> r == d
    ensures r == d.(status := r.status)
  {
    if IsExpired(d, now) then d.(status := Expired) else d
  }

  /** The validators a stored document can still fail when it is saved
      again: the loaded paths are validated too, so the expiration time
      must still lie in the future. */
  predicate Savable(d: Donation, now: Time) {
    d.foodType != "" && d.quantity >= 1.0 && d.expirationTime > now
  }

  /** `donation.save()` on a stored document: validation, then the
      pre-save hook. Validation already demands a future expiration time,
      so a save that passes validation never reaches the hook's forced
      expiry and stores the document as given. */
  function SaveDonation(d: Donation, now: Time): (r: Result<Donation, seq<string>>)
    ensures r.Ok? <==> Savable(d, now)
    ensures r.Ok? ==> r.value == d
    ensures r.Err? && d.expirationTime <= now ==> ExpirationNotFuture in r.error
  {
    var errs := Collect([
      FoodTypeCheck(Some(d.foodType)),
      QuantityCheck(Some(d.quantity)),
      ExpirationCheck(Some(d.expirationTime), now)]);
    if errs != [] then Err(errs) else Ok(ExpiryHook(d, now))
  }
}

=== FILE: donation_routes.dfy ===
/** `POST /api/donations`: a donor offers food. The donor is always the
    caller and the status always starts at the schema default. */
module DonationRoutes {
  import opened Common
  import opened DonationModel
  import opened AuthGate
  import opened Stores
  import opened Text

  const DonationCreated := "Donation created successfully"

  /** The request body. `donorId` and `status` may be sent but the handler
      never reads them. */
  datatype DonationBody = DonationBody(
    foodType: Option<string>,
    category: Option<string>,
    quantity: Option<real>,
    expirationTime: Option<Time>,
    image: Option<string>,
    latitude: Option<real>,
    longitude: Option<real>,
    donorId: Option<Id>,
    status: Option<string>)

  /** The document the handler builds from the body before saving. */
  function DraftOf(user: Claims, b: DonationBody): (dr: Draft)
    ensures dr.donorId == user.userId && dr.status.None?
    ensures dr.foodType == b.foodType && dr.category == b.category && dr.quantity == b.quantity
    ensures dr.expirationTime == b.expirationTime && dr.image == b.image
    ensures dr.latitude == b.latitude && dr.longitude == b.longitude
  {
    Draft(user.userId, b.foodType, b.category, b.quantity, b.expirationTime, b.image, None, b.latitude, b.longitude)
  }

  /** The handler, for a caller the gate admitted. */
  function CreateDonation(s: Store, user: Claims, b: DonationBody, now: Time, newId: Id): (o: Outcome<Donation>)
    requires newId !in s.donations
    ensures o.code == CREATED <==> DraftValid(DraftOf(user, b), now)
    ensures o.code == CREATED ==>
              && o.body.Some? && o.body.value.donorId == user.userId
              && o.body.value.status == Available
              && o.body.value.expirationTime > now
              && o.store == s.(donations := s.donations[newId := o.body.value])
    ensures o.code == CREATED ==>
              && o.body.value.foodType == Trim(b.foodType.value)
              && o.body.value.category == ParseCategory(b.category.value).value
              && CategoryName(o.body.value.category) == b.category.value
              && o.body.value.quantity == b.quantity.value && b.quantity.value >= 1.0
              && o.body.value.expirationTime == b.expirationTime.value
              && o.body.value.image == MapTrim(b.image)
              && o.body.value.location == Location(b.latitude.value, b.longitude.value)
    ensures o.code != CREATED ==> o.code == BAD_REQUEST && o.message == ValidationErrorMessage
                                  && o.errors != [] && o.store == s
                                  && o.errors == DraftErrors(DraftOf(user, b), now)
  {
    match ValidateDraft(DraftOf(user, b), now)
    case Err(errs) => Invalid(s, errs)
    case Ok(d) => Done(s.(donations := s.donations[newId := d]), CREATED, DonationCreated, d)
  }

  /** A refused donation names each faulty field: a past expiry, a quantity
      below 1 and an unknown category each contribute their message. */
  lemma RefusedDonationNamesFaults(s: Store, user: Claims, b: DonationBody, now: Time, newId: Id)
    requires newId !in s.donations
    ensures (b.expirationTime.Some? && b.expirationTime.value <= now)
              ==> ExpirationNotFuture in CreateDonation(s, user, b, now, newId).errors
    ensures (b.quantity.Some? && b.quantity.value < 1.0)
              ==> QuantityTooSmall in CreateDonation(s, user, b, now, newId).errors
    ensures (b.category.Some? && b.category.value != "" && ParseCategory(b.category.value).None?)
              ==> CategoryInvalid(b.category.value) in CreateDonation(s, user, b, now, newId).errors
  {
  }

  /** The route: `auth(['donor'])`, then the handler. */
  function CreateDonationRoute(s: Store, header: Option<string>, verify: string -> Option<Claims>,
                               b: DonationBody, now: Time, newId: Id): (o: Outcome<Donation>)
    requires newId !in s.donations
    ensures o.code == CREATED ==> Authenticate(header, verify, [DonorRole]).Granted?
                                  && Authenticate(header, verify, [DonorRole]).user.role == DonorRole
    ensures Authenticate(header, verify, [DonorRole]).Denied? ==> o.store == s
  {
    Guarded(s, header, verify, [DonorRole], (c: Claims) => CreateDonation(s, c, b, now, newId))
  }

  /** A donor cannot create a donation on someone else's behalf or in any
      status but `available`: the body's `donorId` and `status` change
      nothing in the outcome. */
  lemma BodyOwnerAndStatusIgnored(s: Store, user: Claims, b: DonationBody, now: Time, newId: Id,
                                  forged: Option<Id>, st: Option<string>)
    requires newId !in s.donations
    ensures CreateDonation(s, user, b.(donorId := forged, status := st), now, newId)
            == CreateDonation(s, user, b, now, newId)
  {
    assert DraftOf(user, b.(donorId := forged, status := st)) == DraftOf(user, b);
  }

  /** Every donation the route stores is `available`, owned by the caller
      and expires after the time of creation. */
  lemma CreatedDonationIsFresh(s: Store, header: Option<string>, verify: string -> Option<Claims>,
                               b: DonationBody, now: Time, newId: Id)
    requires newId !in s.donations
    requires CreateDonationRoute(s, header, verify, b, now, newId).code == CREATED
    ensures var o := CreateDonationRoute(s, header, verify, b, now, newId);
            var d := o.store.donations[newId];
            && d.status == Available && !IsExpired(d, now)
            && d.donorId == Authenticate(header, verify, [DonorRole]).user.userId
  {
  }
}

=== FILE: dropoff.dfy ===
/** The drop-off point schema: required trimmed name and address, and
    coordinates restricted to the valid latitude and longitude ranges. */
module DropOffModel {
  import opened Common
  import opened Text

  datatype DropOff = DropOff(name: string, address: string, location: Location)

  const NameRequired := "Name is required"
  const AddressRequired := "Address is required"
  const LatitudeRequired := "Latitude is required"
  const LongitudeRequired := "Longitude is required"
  const LatitudeOutOfRange := "Latitude must be between -90 and 90"
  const LongitudeOutOfRange := "Longitude must be between -180 and 180"

  predicate ValidLatitude(x: real) {
    -90.0 <= x <= 90.0
  }

  predicate ValidLongitude(x: real) {
    -180.0 <= x <= 180.0
  }

  /** What every document written through validation satisfies. */
  predicate ValidDropOff(d: DropOff) {
    d.name != "" && d.address != ""
    && ValidLatitude(d.location.latitude) && ValidLongitude(d.location.longitude)
  }

  function TextCheck(o: Option<string>, message: string): (r: Option<string>)
    ensures r.None? <==> o.Some? && o.value != ""
  {
    if o.None? || o.value == "" then Some(message) else None
  }

  function RangeCheck(o: Option<real>, lo: real, hi: real, missing: string, outOfRange: string)
    : (r: Option<string>)
    ensures r.None? <==> o.Some? && lo <= o.value <= hi
  {
    if o.None? then Some(missing)
    else if o.value < lo || o.value > hi then Some(outOfRange)
    else None
  }

  /** `new DropOff({...})` followed by validation: name and address are
      trimmed and must stay non-empty, latitude lies in [-90, 90] and
      longitude in [-180, 180]. */
  function NewDropOff(name: Option<string>, address: Option<string>, latitude: Option<real>, longitude: Option<real>)
    : (r: Result<DropOff, seq<string>>)
    ensures r.Ok? <==> && name.Some? && Trim(name.value) != ""
                       && address.Some? && Trim(address.value) != ""
                       && latitude.Some? && ValidLatitude(latitude.value)
                       && longitude.Some? && ValidLongitude(longitude.value)
    ensures r.Ok? ==> && ValidDropOff(r.value)
                      && r.value.name == Trim(name.value)
                      && r.value.address == Trim(address.value)
                      && r.value.location == Location(latitude.value, longitude.value)
    ensures r.Err? && latitude.Some? && !ValidLatitude(latitude.value) ==> LatitudeOutOfRange in r.error
    ensures r.Err? && longitude.Some? && !ValidLongitude(longitude.value) ==> LongitudeOutOfRange in r.error
  {
    var n := if name.Some? then Some(Trim(name.value)) else None;
    var a := if address.Some? then Some(Trim(address.value)) else None;
    var lat := RangeCheck(latitude, -90.0, 90.0, LatitudeRequired, LatitudeOutOfRange);
    var lon := RangeCheck(longitude, -180.0, 180.0, LongitudeRequired, LongitudeOutOfRange);
    var checks := [TextCheck(n, NameRequired), TextCheck(a, AddressRequired), lat, lon];
    var errs := Collect(checks);
    assert checks[2] == lat && checks[3] == lon;
    assert errs == [] <==> checks[0].None? && checks[1].None? && lat.None? && lon.None?;
    assert latitude.Some? && !ValidLatitude(latitude.value) ==> lat == Some(LatitudeOutOfRange);
    assert longitude.Some? && !ValidLongitude(longitude.value) ==> lon == Some(LongitudeOutOfRange);
    if errs != [] then Err(errs)
    else Ok(DropOff(n.value, a.value, Location(latitude.value, longitude.value)))
  }

  /** `getFormattedLocation()`: the stored coordinates as a plain pair. */
  function FormattedLocation(d: DropOff): (r: Location)
    ensures r.latitude == d.location.latitude && r.longitude == d.location.longitude
  {
    Location(d.location.latitude, d.location.longitude)
  }
}

=== FILE: expiry.dfy ===
/** `markExpiredDonations`: the periodic bulk update that moves every
    available donation whose expiration time has passed to `expired`.
    The update bypasses validation and the pre-save hook. */
module ExpirySweep {
  import opened Common
  import opened DonationModel
  import opened Stores

  /** The update's filter: `status: 'available'` and `expirationTime < now`. */
  predicate SweepEligible(d: Donation, now: Time) {
    d.status == Available && d.expirationTime < now
  }

  function SweepOne(d: Donation, now: Time): (r: Donation)
    ensures SweepEligible(d, now) ==> r == d.(status := Expired)
    ensures !SweepEligible(d, now) ==> r == d
  {
    if SweepEligible(d, now) then d.(status := Expired) else d
  }

  /** The `$set: { status: 'expired' }` applied to every matching document. */
  function Sweep(donations: map<Id, Donation>, now: Time): (r: map<Id, Donation>)
    ensures r.Keys == donations.Keys
    ensures forall k :: k in donations ==> r[k] == donations[k].(status := r[k].status)
    ensures forall k :: k in donations && SweepEligible(donations[k], now) ==> r[k].status == Expired
    ensures forall k :: k in donations && !SweepEligible(donations[k], now) ==> r[k] == donations[k]
  {
    map k | k in donations :: SweepOne(donations[k], now)
  }

  /** The ids the update matched. */
  function Matched(donations: map<Id, Donation>, now: Time): (ks: set<Id>)
    ensures ks <= donations.Keys
    ensures forall k :: k in ks <==> k in donations && SweepEligible(donations[k], now)
  {
    set k | k in donations && SweepEligible(donations[k], now)
  }

  /** `result.modifiedCount`: each matched document really changes, since
      its status goes from `available` to `expired`. */
  function ModifiedCount(donations: map<Id, Donation>, now: Time): (n: nat)
    ensures n == |Matched(donations, now)|
    ensures n <= |donations|
  {
    CardinalityOfSubset(Matched(donations, now), donations.Keys);
    |Matched(donations, now)|
  }

  lemma {:induction false} CardinalityOfSubset(a: set<Id>, b: set<Id>)
    requires a <= b
    ensures |a| <= |b|
    decreases b
  {
    if b != {} {
      var x :| x in b;
      CardinalityOfSubset(a - {x}, b - {x});
    }
  }

  /** The sweep moves `available` donations only, and only to `expired`:
      picked-up, delivered and already expired donations keep their status. */
  lemma SweepOnlyExpiresAvailable(donations: map<Id, Donation>, now: Time, k: Id)
    requires k in donations
    ensures Sweep(donations, now)[k].status != donations[k].status
            ==> donations[k].status == Available && Sweep(donations, now)[k].status == Expired
    ensures donations[k].status != Available ==> Sweep(donations, now)[k] == donations[k]
  {
  }

  /** A second sweep at the same time (or at any earlier time) finds
      nothing left to change. */
  lemma SweepIdempotent(donations: map<Id, Donation>, now: Time, later: Time)
    requires later <= now
    ensures Sweep(Sweep(donations, now), later) == Sweep(donations, now)
    ensures ModifiedCount(Sweep(donations, now), later) == 0
  {
    var once := Sweep(donations, now);
    assert Matched(once, later) == {};
  }

  /** For an available donation the sweep's filter agrees with `isExpired`:
      both compare the expiration time strictly with the current time. */
  lemma SweepAgreesWithIsExpired(d: Donation, now: Time)
    requires d.status == Available
    ensures SweepEligible(d, now) <==> IsExpired(d, now)
  {
  }

  /** After a sweep no available donation is past its expiration time. */
  lemma NoStaleAvailableAfterSweep(donations: map<Id, Donation>, now: Time)
    ensures forall k :: k in Sweep(donations, now) && Sweep(donations, now)[k].status == Available
              ==> !IsExpired(Sweep(donations, now)[k], now)
  {
  }

  /** One run of the scheduled job: only the donation collection changes,
      and the number of documents it moved is reported. */
  function MarkExpiredDonations(s: Store, now: Time): (r: (Store, nat))
    ensures r.0.users == s.users && r.0.pickups == s.pickups
    ensures r.0.reviews == s.reviews && r.0.dropOffs == s.dropOffs
    ensures r.0.donations.Keys == s.donations.Keys
    ensures forall k :: k in r.0.donations && r.0.donations[k].status == Available
              ==> !IsExpired(r.0.donations[k], now)
    ensures forall k :: k in s.donations ==> (r.0.donations[k] != s.donations[k] <==> k in Matched(s.donations, now))
    ensures forall k :: k in Matched(s.donations, now) ==> r.0.donations[k] == s.donations[k].(status := Expired)
    ensures r.1 == |Matched(s.donations, now)|
  {
    (s.(donations := Sweep(s.donations, now)), ModifiedCount(s.donations, now))
  }
}

=== FILE: pagination.dfy ===
/** The `skip((page - 1) * limit).limit(limit)` listing shared by the admin
    routes, with `Math.ceil(total / limit)` as the page count. */
module Pagination {
  import opened Common

  const DefaultPage := 1
  const DefaultLimit := 20

  datatype Page<T> = Page(items: seq<T>, total: nat, page: int, pages: Option<nat>)

  /** The documents a cursor returns after skipping `skip` of them, with
      `limit == 0` meaning no limit. */
  function Window<T>(all: seq<T>, skip: nat, limit: nat): (w: seq<T>)
    ensures skip >= |all| ==> w == []
    ensures limit > 0 ==> |w| <= limit
    ensures skip < |all| && (limit == 0 || skip + limit >= |all|) ==> |w| == |all| - skip
    ensures skip < |all| && limit > 0 && skip + limit < |all| ==> |w| == limit
    ensures forall i :: 0 <= i < |w| ==> skip + i < |all| && w[i] == all[skip + i]
  {
    if skip >= |all| then []
    else if limit == 0 || skip + limit >= |all| then all[skip..]
    else all[skip..skip + limit]
  }

  /** `Math.ceil(total / limit)`; a zero limit gives `NaN` or `Infinity`,
      which the JSON answer renders as `null`. */
  function PageCount(total: nat, limit: nat): (r: Option<nat>)
    ensures limit == 0 <==> r.None?
    ensures limit > 0 ==> r.value * limit >= total
    ensures limit > 0 && r.value > 0 ==> (r.value - 1) * limit < total
  {
    if limit == 0 then None
    else
      var q := (total + limit - 1) / limit;
      CeilBounds(total, limit, q);
      Some(q)
  }

  lemma CeilBounds(total: nat, limit: nat, q: nat)
    requires limit > 0 && q == (total + limit - 1) / limit
    ensures q * limit >= total
    ensures q > 0 ==> (q - 1) * limit < total
  {
    var n := total + limit - 1;
    assert n == q * limit + n % limit && 0 <= n % limit < limit;
    assert (q - 1) * limit == q * limit - limit;
  }

  /** The number of documents skipped for `page`: `(page - 1) * limit`. */
  function Skip(page: int, limit: nat): (k: int)
    ensures k < 0 <==> page < 1 && limit > 0
    ensures limit == 0 ==> k == 0
  {
    SkipSign(page, limit);
    (page - 1) * limit
  }

  lemma SkipSign(page: int, limit: nat)
    ensures (page - 1) * limit < 0 <==> page < 1 && limit > 0
  {
    if page >= 1 {
      MulNonNegative(page - 1, limit);
    } else if limit > 0 {
      MulNegative(page - 1, limit);
    }
  }

  lemma MulNonNegative(a: int, b: int)
    requires a >= 0 && b >= 0
    ensures a * b >= 0
  {
  }

  lemma MulNegative(a: int, b: int)
    requires a < 0 && b > 0
    ensures a * b < 0
  {
  }

  /** The listing: a negative skip makes the query fail (the 500 answer);
      otherwise the window of the requested page, the total count, the
      requested page number and the page count. */
  function Paginate<T>(all: seq<T>, page: int, limit: nat): (r: Result<Page<T>, string>)
    ensures r.Err? <==> page < 1 && limit > 0
    ensures r.Ok? ==> r.value.total == |all| && r.value.page == page && r.value.pages == PageCount(|all|, limit)
    ensures r.Ok? && limit > 0 ==> |r.value.items| <= limit
    ensures r.Ok? ==> forall i :: 0 <= i < |r.value.items| ==>
              0 <= Skip(page, limit) + i < |all| && r.value.items[i] == all[Skip(page, limit) + i]
    ensures r.Ok? && limit == 0 ==> r.value.items == all
  {
    var skip := Skip(page, limit);
    if skip < 0 then Err(ServerErrorMessage)
    else
      var w := Window(all, skip, limit);
      assert forall i :: 0 <= i < |w| ==> skip + i < |all| && w[i] == all[skip + i];
      Ok(Page(w, |all|, page, PageCount(|all|, limit)))
  }

  lemma DivMod(i: nat, limit: nat)
    requires limit > 0
    ensures i == (i / limit) * limit + i % limit && 0 <= i % limit < limit
  {
  }

  /** Every document appears on exactly the page the page size puts it on,
      and that page is within the reported page count. */
  lemma {:induction false} EveryItemOnItsPage<T>(all: seq<T>, limit: nat, i: nat)
    requires limit > 0 && i < |all|
    ensures var r := Paginate(all, i / limit + 1, limit);
            && r.Ok? && i % limit < |r.value.items| && r.value.items[i % limit] == all[i]
            && i / limit + 1 <= r.value.pages.value
  {
    var p := i / limit + 1;
    var k := i / limit;
    var m := i % limit;
    DivMod(i, limit);
    assert Skip(p, limit) == k * limit;
    var r := Paginate(all, p, limit);
    assert k * limit + m == i;
    var q := r.value.pages.value;
    assert q * limit >= |all| > i;
    PageBound(q, k, limit, i);
  }

  lemma PageBound(q: nat, k: nat, limit: nat, i: nat)
    requires limit > 0 && q * limit > i && i >= k * limit
    ensures k + 1 <= q
  {
  }

  /** No id occurs twice. */
  predicate Distinct(ids: seq<Id>) {
    forall i, j :: 0 <= i < j < |ids| ==> ids[i] != ids[j]
  }

  /** `order` is a sort of the whole collection `m`: every stored id once,
      and nothing else. */
  predicate ListsEach<T>(order: seq<Id>, m: map<Id, T>) {
    Distinct(order) && (forall k :: k in order ==> k in m) && (forall k :: k in m ==> k in order)
  }

  /** `r` is `order` with some entries left out and the rest kept in order. */
  predicate SubsequenceOf(r: seq<Id>, order: seq<Id>)
    decreases |order|
  {
    r == [] || (order != [] && ((r[0] == order[0] && SubsequenceOf(r[1..], order[1..])) || SubsequenceOf(r, order[1..])))
  }

  /** The stored ids whose documents satisfy `keep`: what a query filter matches. */
  function Matching<T>(m: map<Id, T>, keep: T -> bool): (ks: set<Id>)
    ensures ks <= m.Keys
    ensures forall k :: k in ks <==> k in m && keep(m[k])
  {
    set k | k in m && keep(m[k])
  }

  /** The ids in `order` that are stored and satisfy `keep`, in order. */
  function Select<T>(order: seq<Id>, m: map<Id, T>, keep: T -> bool): (r: seq<Id>)
    ensures |r| <= |order|
    ensures forall i :: 0 <= i < |r| ==> r[i] in m && keep(m[r[i]])
    ensures forall k :: k in order && k in m && keep(m[k]) ==> k in r
    ensures forall k :: k in r ==> k in order
    ensures SubsequenceOf(r, order)
  {
    if order == [] then []
    else
      var rest := Select(order[1..], m, keep);
      if order[0] in m && keep(m[order[0]]) then
        var r := [order[0]] + rest;
        assert r[1..] == rest;
        r
      else rest
  }

  /** Selecting from a list without repeats gives a list without repeats. */
  lemma {:induction false} SelectDistinct<T>(order: seq<Id>, m: map<Id, T>, keep: T -> bool)
    requires Distinct(order)
    ensures Distinct(Select(order, m, keep))
  {
    if order != [] {
      SelectDistinct(order[1..], m, keep);
      assert order[0] !in order[1..];
    }
  }

  /** When every listed id is stored and kept, the selection is the whole list. */
  lemma {:induction false} SelectKeepsAll<T>(order: seq<Id>, m: map<Id, T>, keep: T -> bool)
    requires forall i :: 0 <= i < |order| ==> order[i] in m && keep(m[order[i]])
    ensures Select(order, m, keep) == order
  {
    if order != [] {
      SelectKeepsAll(order[1..], m, keep);
      assert [order[0]] + order[1..] == order;
    }
  }

  /** A duplicate-free list has as many entries as it has distinct ids. */
  lemma {:induction false} DistinctCardinality(r: seq<Id>)
    requires Distinct(r)
    ensures |set k: Id | k in r| == |r|
  {
    if r != [] {
      var tail: set<Id> := set k | k in r[1..];
      DistinctCardinality(r[1..]);
      assert r[0] !in tail;
      assert (set k: Id | k in r) == tail + {r[0]};
    } else {
      assert (set k: Id | k in r) == {};
    }
  }

  /** Over a full sort of the collection, the selection lists every
      matching document exactly once, so its length is the number of
      documents the filter matches. */
  lemma SelectCountsMatches<T>(order: seq<Id>, m: map<Id, T>, keep: T -> bool)
    requires ListsEach(order, m)
    ensures |Select(order, m, keep)| == |Matching(m, keep)|
  {
    var r := Select(order, m, keep);
    SelectDistinct(order, m, keep);
    DistinctCardinality(r);
    var listed: set<Id> := set k: Id | k in r;
    forall k | k in Matching(m, keep)
      ensures k in listed
    {
      assert k in order;
    }
    assert listed == Matching(m, keep);
  }

  /** A full sort is as long as the collection. */
  lemma ListsEachLength<T>(order: seq<Id>, m: map<Id, T>)
    requires ListsEach(order, m)
    ensures |order| == |m|
  {
    DistinctCardinality(order);
    var listed: set<Id> := set k: Id | k in order;
    assert listed == m.Keys;
    assert |m.Keys| == |m|;
  }

  /** The stored documents of `ids`, in order. */
  function Documents<T>(ids: seq<Id>, m: map<Id, T>): (r: seq<T>)
    requires forall i :: 0 <= i < |ids| ==> ids[i] in m
    ensures |r| == |ids|
    ensures forall i :: 0 <= i < |ids| ==> r[i] == m[ids[i]]
  {
    seq(|ids|, i requires 0 <= i < |ids| => m[ids[i]])
  }

  /** A page of the stored documents of `ids`: each item is the document of
      the id at its position after the skip, so it is a stored document. */
  lemma PageOfDocuments<T>(ids: seq<Id>, m: map<Id, T>, page: int, limit: nat)
    requires forall i :: 0 <= i < |ids| ==> ids[i] in m
    requires Paginate(Documents(ids, m), page, limit).Ok?
    ensures var p := Paginate(Documents(ids, m), page, limit).value;
            && (forall i :: 0 <= i < |p.items| ==>
                  0 <= Skip(page, limit) + i < |ids| && p.items[i] == m[ids[Skip(page, limit) + i]])
            && forall d :: d in p.items ==> d in m.Values
  {
    var p := Paginate(Documents(ids, m), page, limit).value;
    forall d | d in p.items
      ensures d in m.Values
    {
      var i :| 0 <= i < |p.items| && p.items[i] == d;
      assert ids[Skip(page, limit) + i] in m;
    }
  }
}

=== FILE: pickup.dfy ===
/** The pickup schema: its status enum and default, the required
    references, `isPending` / `isCompleted` and the pre-save guard that
    re-checks the referenced donation on every save. */
module PickupModel {
  import opened Common
  import opened DonationModel

  datatype PickupStatus = Pending | Accepted | Completed

  function PickupStatusName(st: PickupStatus): string {
    match st
    case Pending => "pending"
    case Accepted => "accepted"
    case Completed => "completed"
  }

  /** The status enum validator. */
  function ParsePickupStatus(s: string): (r: Option<PickupStatus>)
    ensures r.Some? ==> PickupStatusName(r.value) == s
    ensures r.None? ==> forall st: PickupStatus :: PickupStatusName(st) != s
  {
    if s == "pending" then Some(Pending)
    else if s == "accepted" then Some(Accepted)
    else if s == "completed" then Some(Completed)
    else None
  }

  datatype Pickup = Pickup(donationId: Id, pickupUserId: Id, status: PickupStatus)

  predicate IsPending(p: Pickup) {
    p.status == Pending
  }

  predicate IsCompleted(p: Pickup) {
    p.status == Completed
  }

  const DonationIdRequired := "Donation ID is required"
  const PickupUserIdRequired := "Pickup user ID is required"
  const DonationNotFound := "Donation not found"
  const DonationNotAvailable := "Donation is not available for pickup"

  function PickupStatusCheck(status: Option<string>): (r: Option<string>)
    ensures r.None? <==> status.None? || ParsePickupStatus(status.value).Some?
  {
    if status.Some? && ParsePickupStatus(status.value).None? then
      Some(status.value + " is not a valid status")
    else None
  }

  /** `new Pickup({...})` followed by validation: both references are
      required and an absent status defaults to `pending`. */
  function NewPickup(donationId: Option<Id>, pickupUserId: Option<Id>, status: Option<string>)
    : (r: Result<Pickup, seq<string>>)
    ensures r.Ok? <==> donationId.Some? && pickupUserId.Some?
                       && (status.None? || ParsePickupStatus(status.value).Some?)
    ensures r.Ok? ==> r.value.donationId == donationId.value
                      && r.value.pickupUserId == pickupUserId.value
    ensures r.Ok? && status.None? ==> r.value.status == Pending
    ensures r.Err? && donationId.None? ==> DonationIdRequired in r.error
    ensures r.Err? && pickupUserId.None? ==> PickupUserIdRequired in r.error
  {
    var errs := Collect([
      Required(donationId, DonationIdRequired),
      Required(pickupUserId, PickupUserIdRequired),
      PickupStatusCheck(status)]);
    if errs != [] then Err(errs)
    else
      var st := if status.Some? then ParsePickupStatus(status.value).value else Pending;
      Ok(Pickup(donationId.value, pickupUserId.value, st))
  }

  /** The pre-save hook: the referenced donation must exist and be
      `available`, whether the pickup is new or already stored. */
  function AvailabilityGuard(donations: map<Id, Donation>, p: Pickup): (r: Option<string>)
    ensures r.None? <==> p.donationId in donations && donations[p.donationId].status == Available
    ensures r == Some(DonationNotFound) <==> p.donationId !in donations
    ensures r.Some? ==> r.value == DonationNotFound || r.value == DonationNotAvailable
  {
    if p.donationId !in donations then Some(DonationNotFound)
    else if donations[p.donationId].status != Available then Some(DonationNotAvailable)
    else None
  }

  /** `pickup.save()` under id `id`: the guard, then the write. */
  function SavePickup(pickups: map<Id, Pickup>, donations: map<Id, Donation>, id: Id, p: Pickup)
    : (r: Result<map<Id, Pickup>, string>)
    ensures r.Ok? <==> p.donationId in donations && donations[p.donationId].status == Available
    ensures r.Ok? ==> r.value.Keys == pickups.Keys + {id} && r.value[id] == p
    ensures r.Ok? ==> forall k :: k in pickups && k != id ==> r.value[k] == pickups[k]
    ensures r.Err? ==> r.error == DonationNotFound || r.error == DonationNotAvailable
  {
    match AvailabilityGuard(donations, p)
    case Some(e) => Err(e)
    case None => Ok(pickups[id := p])
  }

  /** The guard runs on every save, not only on creation: once the
      referenced donation has left `available`, saving any pickup that
      references it fails, whatever the pickup's own status. */
  lemma GuardBlocksResave(pickups: map<Id, Pickup>, donations: map<Id, Donation>, id: Id, p: Pickup)
    requires p.donationId in donations && donations[p.donationId].status != Available
    ensures SavePickup(pickups, donations, id, p) == Err(DonationNotAvailable)
  {
  }
}

=== FILE: pickup_routes.dfy ===
/** `POST /api/pickups`: a pickup service claims an available donation.
    The handler writes the pickup first and the donation second, and a
    failure of the second write leaves the first in place. */
module PickupRoutes {
  import opened Common
  import opened DonationModel
  import opened PickupModel
  import opened AuthGate
  import opened Stores
  import opened ExpirySweep

  const PickupExists := "A pickup request already exists for this donation"
  const PickupCreated := "Pickup request created successfully"

  /** The duplicate check: some pickup for the donation is still pending. */
  predicate PendingFor(pickups: map<Id, Pickup>, donationId: Id) {
    exists k | k in pickups :: pickups[k].donationId == donationId && IsPending(pickups[k])
  }

  /** No pending request sits on a donation that is still offered: every
      pending pickup references a stored donation that has left `available`. */
  predicate ClaimsConsistent(s: Store) {
    forall k :: k in s.pickups && IsPending(s.pickups[k]) ==>
      s.pickups[k].donationId in s.donations && s.donations[s.pickups[k].donationId].status != Available
  }

  /** Every way the claim can get past its three checks. */
  predicate Claimable(s: Store, donationId: Option<Id>) {
    && donationId.Some? && donationId.value in s.donations
    && s.donations[donationId.value].status == Available
    && !PendingFor(s.pickups, donationId.value)
  }

  /** The handler as written, for a caller the gate admitted. */
  function Claim(s: Store, user: Claims, donationId: Option<Id>, now: Time, newId: Id): (o: Outcome<Pickup>)
    requires newId !in s.pickups
    ensures o.code == CREATED || o.code == BAD_REQUEST || o.code == SERVER_ERROR
    ensures donationId.None? || donationId.value !in s.donations ==> o == Reply(s, BAD_REQUEST, DonationNotFound)
    ensures (donationId.Some? && donationId.value in s.donations
             && s.donations[donationId.value].status != Available) ==> o == Reply(s, BAD_REQUEST, DonationNotAvailable)
    ensures (donationId.Some? && donationId.value in s.donations
             && s.donations[donationId.value].status == Available
             && PendingFor(s.pickups, donationId.value)) ==> o == Reply(s, BAD_REQUEST, PickupExists)
    ensures o.code == CREATED <==> Claimable(s, donationId)
                                   && Savable(s.donations[donationId.value].(status := PickedUp), now)
    ensures o.code == CREATED ==>
              && o.body == Some(Pickup(donationId.value, user.userId, Pending))
              && o.store == s.(pickups := s.pickups[newId := o.body.value],
                               donations := s.donations[donationId.value := s.donations[donationId.value].(status := PickedUp)])
    ensures !Claimable(s, donationId) ==> o.store == s
  {
    if donationId.None? || donationId.value !in s.donations then Reply(s, BAD_REQUEST, DonationNotFound)
    else
      var did := donationId.value;
      var d := s.donations[did];
      if d.status != Available then Reply(s, BAD_REQUEST, DonationNotAvailable)
      else if PendingFor(s.pickups, did) then Reply(s, BAD_REQUEST, PickupExists)
      else match NewPickup(Some(did), Some(user.userId), None)
        case Err(errs) => Invalid(s, errs)
        case Ok(p) =>
          match SavePickup(s.pickups, s.donations, newId, p)
          case Err(_) => Reply(s, SERVER_ERROR, ServerErrorMessage)
          case Ok(pickups) =>
            var s1 := s.(pickups := pickups);
            match SaveDonation(d.(status := PickedUp), now)
            case Err(errs) => Invalid(s1, errs)
            case Ok(d1) => Done(s1.(donations := s.donations[did := d1]), CREATED, PickupCreated, p)
  }

  /** The route: `auth(['pickup'])`, then the handler. */
  function ClaimRoute(s: Store, header: Option<string>, verify: string -> Option<Claims>,
                      donationId: Option<Id>, now: Time, newId: Id): (o: Outcome<Pickup>)
    requires newId !in s.pickups
    ensures o.code == CREATED ==> Authenticate(header, verify, [PickupRole]).Granted?
                                  && Authenticate(header, verify, [PickupRole]).user.role == PickupRole
    ensures Authenticate(header, verify, [PickupRole]).Denied? ==> o.store == s
  {
    Guarded(s, header, verify, [PickupRole], (c: Claims) => Claim(s, c, donationId, now, newId))
  }

  /** A claim of an available donation whose expiration time has passed but
      that the periodic job has not yet swept: the pickup is written, then
      re-saving the donation fails validation, so the answer is a 400 while
      the store keeps a pending pickup on a donation that is still
      `available`. */
  lemma ClaimLeavesOrphanPickup(s: Store, user: Claims, did: Id, now: Time, newId: Id)
    requires newId !in s.pickups
    requires Claimable(s, Some(did)) && s.donations[did].expirationTime <= now
    ensures var o := Claim(s, user, Some(did), now, newId);
            && o.code == BAD_REQUEST && o.message == ValidationErrorMessage
            && ExpirationNotFuture in o.errors
            && o.store.pickups == s.pickups[newId := Pickup(did, user.userId, Pending)]
            && o.store.donations == s.donations
            && !ClaimsConsistent(o.store)
  {
    var o := Claim(s, user, Some(did), now, newId);
    assert o.store.pickups[newId].donationId == did && IsPending(o.store.pickups[newId]);
  }

  /** The orphan left behind blocks every later claim of that donation: the
      donation is still `available`, but a pending request for it exists. */
  lemma OrphanBlocksLaterClaims(s: Store, user: Claims, did: Id, now: Time, newId: Id,
                                other: Claims, later: Time, nextId: Id)
    requires newId !in s.pickups
    requires Claimable(s, Some(did)) && s.donations[did].expirationTime <= now
    requires nextId !in Claim(s, user, Some(did), now, newId).store.pickups
    ensures var s1 := Claim(s, user, Some(did), now, newId).store;
            Claim(s1, other, Some(did), later, nextId) == Reply(s1, BAD_REQUEST, PickupExists)
  {
    var s1 := Claim(s, user, Some(did), now, newId).store;
    ClaimLeavesOrphanPickup(s, user, did, now, newId);
    assert s1.pickups[newId].donationId == did && IsPending(s1.pickups[newId]);
  }

  /** Only `pending` requests count as duplicates: an `accepted` or
      `completed` request for an available donation does not stop a new
      claim, which then succeeds whenever the donation can be saved. */
  lemma OnlyPendingRequestsBlock(s: Store, user: Claims, did: Id, now: Time, newId: Id, k: Id)
    requires newId !in s.pickups
    requires did in s.donations && s.donations[did].status == Available
    requires k in s.pickups && s.pickups[k].donationId == did && s.pickups[k].status == Accepted
    requires forall j :: j in s.pickups && s.pickups[j].donationId == did ==> !IsPending(s.pickups[j])
    ensures Claim(s, user, Some(did), now, newId).message != PickupExists
    ensures Savable(s.donations[did].(status := PickedUp), now) ==> Claim(s, user, Some(did), now, newId).code == CREATED
  {
  }

  /** A successful claim adds exactly one pickup. */
  lemma ClaimAddsOnePickup(s: Store, user: Claims, donationId: Option<Id>, now: Time, newId: Id)
    requires newId !in s.pickups
    requires Claim(s, user, donationId, now, newId).code == CREATED
    ensures |Claim(s, user, donationId, now, newId).store.pickups| == |s.pickups| + 1
  {
  }

  /** A fresh claim is pending and not completed: it still blocks other
      claims on the donation until it is accepted or completed. */
  lemma ClaimedPickupIsPending(s: Store, user: Claims, donationId: Option<Id>, now: Time, newId: Id)
    requires newId !in s.pickups
    requires Claim(s, user, donationId, now, newId).code == CREATED
    ensures var p := Claim(s, user, donationId, now, newId).store.pickups[newId];
            IsPending(p) && !IsCompleted(p) && p.pickupUserId == user.userId
  {
  }

  /** The pickup guard runs on every save, so once a claim has succeeded
      the new pickup can never be saved again: its donation is now
      `picked_up`, whatever status the pickup is given. */
  lemma ClaimedPickupCannotBeSavedAgain(s: Store, user: Claims, donationId: Option<Id>, now: Time, newId: Id,
                                        st: PickupStatus)
    requires newId !in s.pickups
    requires Claim(s, user, donationId, now, newId).code == CREATED
    ensures var s1 := Claim(s, user, donationId, now, newId).store;
            SavePickup(s1.pickups, s1.donations, newId, s1.pickups[newId].(status := st)) == Err(DonationNotAvailable)
  {
    var s1 := Claim(s, user, donationId, now, newId).store;
    GuardBlocksResave(s1.pickups, s1.donations, newId, s1.pickups[newId].(status := st));
  }

  /** The claim as evidently intended: the donation update and the pickup
      write succeed or fail together, so a failed claim changes nothing. */
  function ClaimAtomic(s: Store, user: Claims, donationId: Option<Id>, now: Time, newId: Id): (o: Outcome<Pickup>)
    requires newId !in s.pickups
    ensures o.code == CREATED <==> Claimable(s, donationId)
                                   && Savable(s.donations[donationId.value].(status := PickedUp), now)
    ensures o.code == CREATED ==>
              && o.body == Some(Pickup(donationId.value, user.userId, Pending))
              && o.store == s.(pickups := s.pickups[newId := o.body.value],
                               donations := s.donations[donationId.value := s.donations[donationId.value].(status := PickedUp)])
    ensures o.code != CREATED ==> o.store == s
  {
    var o := Claim(s, user, donationId, now, newId);
    if o.code == CREATED then o else o.(store := s)
  }

  /** The atomic claim keeps the store consistent on every path. */
  lemma ClaimAtomicPreservesConsistency(s: Store, user: Claims, donationId: Option<Id>, now: Time, newId: Id)
    requires newId !in s.pickups
    requires ClaimsConsistent(s)
    ensures ClaimsConsistent(ClaimAtomic(s, user, donationId, now, newId).store)
  {
    var o := ClaimAtomic(s, user, donationId, now, newId);
    if o.code == CREATED {
      var did := donationId.value;
      var s1 := o.store;
      forall k | k in s1.pickups && IsPending(s1.pickups[k])
        ensures s1.pickups[k].donationId in s1.donations && s1.donations[s1.pickups[k].donationId].status != Available
      {
        if k != newId {
          assert s.pickups[k] == s1.pickups[k];
        }
      }
    }
  }

  /** The periodic expiry job keeps the store consistent: it only moves
      donations out of `available`. */
  lemma SweepPreservesConsistency(s: Store, now: Time)
    requires ClaimsConsistent(s)
    ensures ClaimsConsistent(MarkExpiredDonations(s, now).0)
  {
    var s1 := MarkExpiredDonations(s, now).0;
    forall k | k in s1.pickups && IsPending(s1.pickups[k])
      ensures s1.pickups[k].donationId in s1.donations && s1.donations[s1.pickups[k].donationId].status != Available
    {
      var did := s.pickups[k].donationId;
      assert s1.donations[did] == Sweep(s.donations, now)[did];
    }
  }
}

=== FILE: review.dfy ===
/** The review schema: rating range, trimmed bounded comment, the review
    type enum, and the per-user rating aggregate. */
module ReviewModel {
  import opened Common
  import opened Text

  datatype ReviewType = DonorToPickup | PickupToDonor | BeneficiaryFeedback

  function ReviewTypeName(t: ReviewType): string {
    match t
    case DonorToPickup => "donor_to_pickup"
    case PickupToDonor => "pickup_to_donor"
    case BeneficiaryFeedback => "beneficiary_feedback"
  }

  /** The type enum validator. */
  function ParseReviewType(s: string): (r: Option<ReviewType>)
    ensures r.Some? ==> ReviewTypeName(r.value) == s
    ensures r.None? ==> forall t: ReviewType :: ReviewTypeName(t) != s
  {
    if s == "donor_to_pickup" then Some(DonorToPickup)
    else if s == "pickup_to_donor" then Some(PickupToDonor)
    else if s == "beneficiary_feedback" then Some(BeneficiaryFeedback)
    else None
  }

  /** A stored review; an absent `donationId` or `pickupId` is what a
      `null` query value matches. */
  datatype Review = Review(
    reviewerId: Id,
    revieweeId: Id,
    donationId: Option<Id>,
    pickupId: Option<Id>,
    rating: real,
    comment: Option<string>,
    kind: ReviewType)

  const MinRating := 1.0
  const MaxRating := 5.0
  const MaxCommentLength := 500

  const ReviewerIdRequired := "Reviewer ID is required"
  const RevieweeIdRequired := "Reviewee ID is required"
  const RatingRequired := "Rating is required"
  const RatingTooLow := "Rating must be at least 1"
  const RatingTooHigh := "Rating cannot be more than 5"
  const CommentTooLong := "Comment cannot exceed 500 characters"
  const TypeRequired := "Review type is required"

  function RatingCheck(rating: Option<real>): (r: Option<string>)
    ensures r.None? <==> rating.Some? && MinRating <= rating.value <= MaxRating
  {
    if rating.None? then Some(RatingRequired)
    else if rating.value < MinRating then Some(RatingTooLow)
    else if rating.value > MaxRating then Some(RatingTooHigh)
    else None
  }

  /** The maxlength validator, applied to the trimmed comment; the length
      is JavaScript's, in UTF-16 code units. */
  function CommentCheck(comment: Option<string>): (r: Option<string>)
    ensures r.None? <==> comment.None? || Utf16Length(comment.value) <= MaxCommentLength
  {
    if comment.Some? && Utf16Length(comment.value) > MaxCommentLength then Some(CommentTooLong) else None
  }

  /** A comment made only of characters outside the Basic Multilingual
      Plane is refused once it holds more than 250 of them, half the
      limit a comment of ordinary characters gets. */
  lemma AstralCommentHalvesLimit(comment: string)
    requires forall i :: 0 <= i < |comment| ==> IsAstral(comment[i])
    ensures CommentCheck(Some(comment)).None? <==> |comment| <= MaxCommentLength / 2
  {
  }

  function TypeCheck(kind: Option<string>): (r: Option<string>)
    ensures r.None? <==> kind.Some? && ParseReviewType(kind.value).Some?
  {
    if kind.None? || kind.value == "" then Some(TypeRequired)
    else if ParseReviewType(kind.value).None? then Some(kind.value + " is not a valid review type")
    else None
  }

  /** The values a review document stores once its setters have run. */
  predicate ValidReview(r: Review) {
    MinRating <= r.rating <= MaxRating
    && (r.comment.Some? ==> Utf16Length(r.comment.value) <= MaxCommentLength && Trim(r.comment.value) == r.comment.value)
  }

  function TrimComment(comment: Option<string>): (r: Option<string>)
    ensures r.Some? <==> comment.Some?
    ensures r.Some? ==> r.value == Trim(comment.value) && Trim(r.value) == r.value
  {
    match comment
    case None => None
    case Some(c) => TrimIdempotent(c); Some(Trim(c))
  }

  /** `new Review({...})` followed by validation: both user references are
      required, the rating lies in [1, 5], the trimmed comment has at most
      500 characters and the type is one of the three kinds. */
  function NewReview(
    reviewerId: Option<Id>, revieweeId: Option<Id>, donationId: Option<Id>, pickupId: Option<Id>,
    rating: Option<real>, comment: Option<string>, kind: Option<string>)
    : (r: Result<Review, seq<string>>)
    ensures r.Ok? <==> && reviewerId.Some? && revieweeId.Some?
                       && rating.Some? && MinRating <= rating.value <= MaxRating
                       && (comment.None? || Utf16Length(Trim(comment.value)) <= MaxCommentLength)
                       && kind.Some? && ParseReviewType(kind.value).Some?
    ensures r.Ok? ==> && ValidReview(r.value)
                      && r.value.reviewerId == reviewerId.value
                      && r.value.revieweeId == revieweeId.value
                      && r.value.donationId == donationId
                      && r.value.pickupId == pickupId
                      && r.value.rating == rating.value
                      && r.value.comment == TrimComment(comment)
    ensures r.Err? && rating.Some? && rating.value > MaxRating ==> RatingTooHigh in r.error
  {
    var trimmed := TrimComment(comment);
    var errs := Collect([
      Required(reviewerId, ReviewerIdRequired),
      Required(revieweeId, RevieweeIdRequired),
      RatingCheck(rating),
      CommentCheck(trimmed),
      TypeCheck(kind)]);
    if errs != [] then Err(errs)
    else Ok(Review(reviewerId.value, revieweeId.value, donationId, pickupId,
                   rating.value, trimmed, ParseReviewType(kind.value).value))
  }

  /** `review.save()` of a stored review after an edit: the loaded and the
      modified paths are validated again. */
  function SaveReview(r: Review): (res: Result<Review, seq<string>>)
    ensures res.Ok? <==> MinRating <= r.rating <= MaxRating
                         && (r.comment.None? || Utf16Length(r.comment.value) <= MaxCommentLength)
    ensures res.Ok? ==> res.value == r
  {
    var errs := Collect([RatingCheck(Some(r.rating)), CommentCheck(r.comment)]);
    if errs != [] then Err(errs) else Ok(r)
  }

  // ---------------------------------------------------------------------
  // The rating aggregate

  /** The reviews written about `userId` (the aggregation's `$match`). */
  function ReviewsAbout(reviews: map<Id, Review>, userId: Id): (ks: set<Id>)
    ensures ks <= reviews.Keys
    ensures forall k :: k in ks <==> k in reviews && reviews[k].revieweeId == userId
  {
    set k | k in reviews && reviews[k].revieweeId == userId
  }

  /** The sum of the ratings of the reviews with ids in `ks`. */
  ghost function RatingSum(reviews: map<Id, Review>, ks: set<Id>): real
    requires ks <= reviews.Keys
    decreases ks
  {
    if ks == {} then 0.0
    else
      var k :| k in ks;
      reviews[k].rating + RatingSum(reviews, ks - {k})
  }

  /** The sum does not depend on which element the definition picks first. */
  lemma {:induction false} RatingSumRemove(reviews: map<Id, Review>, ks: set<Id>, x: Id)
    requires ks <= reviews.Keys && x in ks
    ensures RatingSum(reviews, ks) == reviews[x].rating + RatingSum(reviews, ks - {x})
    decreases ks
  {
    var y :| y in ks && RatingSum(reviews, ks) == reviews[y].rating + RatingSum(reviews, ks - {y});
    if y != x {
      RatingSumRemove(reviews, ks - {y}, x);
      RatingSumRemove(reviews, ks - {x}, y);
      assert ks - {y} - {x} == ks - {x} - {y};
    }
  }

  /** With every rating in [1, 5], the sum lies between |ks| and 5 |ks|. */
  lemma {:induction false} RatingSumBounds(reviews: map<Id, Review>, ks: set<Id>)
    requires ks <= reviews.Keys
    requires forall k :: k in ks ==> MinRating <= reviews[k].rating <= MaxRating
    ensures MinRating * (|ks| as real) <= RatingSum(reviews, ks) <= MaxRating * (|ks| as real)
    decreases ks
  {
    if ks != {} {
      var k :| k in ks;
      RatingSumRemove(reviews, ks, k);
      RatingSumBounds(reviews, ks - {k});
    }
  }

  datatype RatingStats = RatingStats(averageRating: real, totalReviews: nat)

  /** The `$group` stage over the matched reviews `ks`: their number and
      the mean of their ratings, or 0 and 0 when nothing matched. */
  method AverageOver(reviews: map<Id, Review>, ks: set<Id>) returns (stats: RatingStats)
    requires ks <= reviews.Keys
    ensures stats.totalReviews == |ks|
    ensures stats.totalReviews == 0 ==> stats.averageRating == 0.0
    ensures stats.totalReviews > 0 ==> stats.averageRating * (stats.totalReviews as real) == RatingSum(reviews, ks)
  {
    var todo := ks;
    var sum := 0.0;
    var count := 0;
    while todo != {}
      invariant todo <= ks
      invariant count + |todo| == |ks|
      invariant sum == RatingSum(reviews, ks - todo)
      decreases todo
    {
      var k :| k in todo;
      RatingSumStep(reviews, ks, todo, k);
      sum := sum + reviews[k].rating;
      count := count + 1;
      todo := todo - {k};
    }
    assert ks - todo == ks;
    if count == 0 {
      stats := RatingStats(0.0, 0);
    } else {
      DivideThenMultiply(sum, count as real);
      stats := RatingStats(sum / (count as real), count);
    }
  }

  /** Adding one more review to the group adds its rating to the sum. */
  lemma RatingSumAdd(reviews: map<Id, Review>, done: set<Id>, k: Id)
    requires done <= reviews.Keys && k in reviews && k !in done
    ensures RatingSum(reviews, done + {k}) == RatingSum(reviews, done) + reviews[k].rating
    ensures |done + {k}| == |done| + 1
  {
    RatingSumRemove(reviews, done + {k}, k);
    assert done + {k} - {k} == done;
  }

  /** Moving one review from the pending ids to the summed ones adds its
      rating to the sum and removes one pending id. */
  lemma RatingSumStep(reviews: map<Id, Review>, ks: set<Id>, todo: set<Id>, k: Id)
    requires ks <= reviews.Keys && todo <= ks && k in todo
    ensures RatingSum(reviews, ks - (todo - {k})) == RatingSum(reviews, ks - todo) + reviews[k].rating
    ensures |todo - {k}| == |todo| - 1
  {
    assert ks - (todo - {k}) == (ks - todo) + {k};
    RatingSumAdd(reviews, ks - todo, k);
  }

  lemma DivideThenMultiply(x: real, n: real)
    requires n > 0.0
    ensures (x / n) * n == x
  {
  }

  /** `calculateAverageRating(userId)` with `userId` an object id: the number
      of reviews about the user and the mean of their ratings, or 0 and 0
      when there are none. */
  method CalculateAverageRating(reviews: map<Id, Review>, userId: Id) returns (stats: RatingStats)
    ensures stats.totalReviews == |ReviewsAbout(reviews, userId)|
    ensures stats.totalReviews == 0 ==> stats.averageRating == 0.0
    ensures stats.totalReviews > 0 ==>
              stats.averageRating * (stats.totalReviews as real)
              == RatingSum(reviews, ReviewsAbout(reviews, userId))
  {
    stats := AverageOver(reviews, ReviewsAbout(reviews, userId));
  }

  lemma MeanWithinBounds(mean: real, n: real, sum: real, lo: real, hi: real)
    requires n > 0.0 && mean * n == sum && lo * n <= sum <= hi * n
    ensures lo <= mean <= hi
  {
    assert (mean - lo) * n >= 0.0;
    assert (hi - mean) * n >= 0.0;
  }

  /** When every stored review is valid, the reported average is itself a
      rating: it lies in [1, 5] whenever there is at least one review. */
  lemma AverageWithinRatingRange(reviews: map<Id, Review>, userId: Id, stats: RatingStats)
    requires forall k :: k in reviews ==> ValidReview(reviews[k])
    requires stats.totalReviews == |ReviewsAbout(reviews, userId)| > 0
    requires stats.averageRating * (stats.totalReviews as real)
             == RatingSum(reviews, ReviewsAbout(reviews, userId))
    ensures MinRating <= stats.averageRating <= MaxRating
  {
    var ks := ReviewsAbout(reviews, userId);
    RatingSumBounds(reviews, ks);
    MeanWithinBounds(stats.averageRating, |ks| as real, RatingSum(reviews, ks), MinRating, MaxRating);
  }
}

=== FILE: review_routes.dfy ===
/** The `/api/reviews` routes: reading a user's reviews with their average,
    writing a review, and the reviewer's (or an admin's) edit and removal. */
module ReviewRoutes {
  import opened Common
  import opened Text
  import opened AuthGate
  import opened ReviewModel
  import opened Stores
  import opened Pagination

  const ReviewFieldsRequired := "Reviewee ID, rating, and type are required"
  const SelfReview := "You cannot review yourself"
  const RevieweeNotFound := "Reviewee not found"
  const AlreadyReviewed := "You have already reviewed this user for this transaction"
  const ReviewCreated := "Review created successfully"
  const ReviewNotFound := "Review not found"
  const NotAuthorizedToUpdate := "Not authorized to update this review"
  const ReviewUpdated := "Review updated successfully"
  const NotAuthorizedToDelete := "Not authorized to delete this review"
  const ReviewDeleted := "Review deleted successfully"
  const ReviewsRetrieved := "Reviews retrieved successfully"
  const GivenRetrieved := "Your reviews retrieved successfully"
  const ReceivedRetrieved := "Reviews about you retrieved successfully"

  /** Every stored review satisfies the schema. */
  predicate ReviewsValid(s: Store) {
    forall k :: k in s.reviews ==> ValidReview(s.reviews[k])
  }

  datatype ReviewRequest = ReviewRequest(
    revieweeId: Option<Id>,
    donationId: Option<Id>,
    pickupId: Option<Id>,
    rating: Option<real>,
    comment: Option<string>,
    kind: Option<string>)

  /** The duplicate query as written: `{ donationId: donationId || null }`
      or `{ pickupId: pickupId || null }`, where a `null` value also matches
      a review that lacks the field. */
  predicate DuplicateAsWritten(r: Review, reviewerId: Id, q: ReviewRequest)
    requires q.revieweeId.Some?
  {
    && r.reviewerId == reviewerId && r.revieweeId == q.revieweeId.value
    && (r.donationId == q.donationId || r.pickupId == q.pickupId)
  }

  /** The duplicate rule as evidently intended: the same reviewer, the same
      reviewee, and the same donation or the same pickup, comparing only
      the references the request supplies. */
  predicate SameTransaction(r: Review, reviewerId: Id, q: ReviewRequest)
    requires q.revieweeId.Some?
  {
    && r.reviewerId == reviewerId && r.revieweeId == q.revieweeId.value
    && ((q.donationId.Some? && r.donationId == q.donationId)
        || (q.pickupId.Some? && r.pickupId == q.pickupId))
  }

  predicate HasDuplicate(s: Store, reviewerId: Id, q: ReviewRequest, corrected: bool)
    requires q.revieweeId.Some?
  {
    exists k | k in s.reviews ::
      if corrected then SameTransaction(s.reviews[k], reviewerId, q)
      else DuplicateAsWritten(s.reviews[k], reviewerId, q)
  }

  /** `POST /` for an admitted caller; `corrected` selects the duplicate
      rule (`false` is the handler as written). */
  function CreateReviewWith(s: Store, user: Claims, q: ReviewRequest, newId: Id, corrected: bool): (o: Outcome<Review>)
    requires newId !in s.reviews
    ensures (q.revieweeId.None? || !TruthyNumber(q.rating) || !Truthy(q.kind))
              ==> o == Reply(s, BAD_REQUEST, ReviewFieldsRequired)
    ensures (q.revieweeId.Some? && TruthyNumber(q.rating) && Truthy(q.kind) && q.revieweeId.value == user.userId)
              ==> o == Reply(s, BAD_REQUEST, SelfReview)
    ensures (q.revieweeId.Some? && TruthyNumber(q.rating) && Truthy(q.kind) && q.revieweeId.value != user.userId
             && q.revieweeId.value !in s.users)
              ==> o == Reply(s, NOT_FOUND, RevieweeNotFound)
    ensures (q.revieweeId.Some? && TruthyNumber(q.rating) && Truthy(q.kind) && q.revieweeId.value != user.userId
             && q.revieweeId.value in s.users && HasDuplicate(s, user.userId, q, corrected))
              ==> o == Reply(s, BAD_REQUEST, AlreadyReviewed)
    ensures o.code == CREATED <==>
              && q.revieweeId.Some? && TruthyNumber(q.rating) && Truthy(q.kind)
              && q.revieweeId.value != user.userId && q.revieweeId.value in s.users
              && !HasDuplicate(s, user.userId, q, corrected)
              && NewReview(Some(user.userId), q.revieweeId, q.donationId, q.pickupId, q.rating, q.comment, q.kind).Ok?
    ensures o.code == CREATED ==>
              && o.body.Some? && ValidReview(o.body.value)
              && o.body.value.reviewerId == user.userId
              && o.body.value.revieweeId == q.revieweeId.value
              && o.store == s.(reviews := s.reviews[newId := o.body.value])
    ensures o.code == CREATED ==>
              o.body == Some(NewReview(Some(user.userId), q.revieweeId, q.donationId, q.pickupId,
                                       q.rating, q.comment, q.kind).value)
    ensures (q.revieweeId.Some? && TruthyNumber(q.rating) && Truthy(q.kind) && q.revieweeId.value != user.userId
             && q.revieweeId.value in s.users && !HasDuplicate(s, user.userId, q, corrected)
             && NewReview(Some(user.userId), q.revieweeId, q.donationId, q.pickupId, q.rating, q.comment, q.kind).Err?)
              ==> o == Invalid(s, NewReview(Some(user.userId), q.revieweeId, q.donationId, q.pickupId,
                                            q.rating, q.comment, q.kind).error)
    ensures o.code != CREATED ==> o.store == s
  {
    if q.revieweeId.None? || !TruthyNumber(q.rating) || !Truthy(q.kind) then Reply(s, BAD_REQUEST, ReviewFieldsRequired)
    else if q.revieweeId.value == user.userId then Reply(s, BAD_REQUEST, SelfReview)
    else if q.revieweeId.value !in s.users then Reply(s, NOT_FOUND, RevieweeNotFound)
    else if HasDuplicate(s, user.userId, q, corrected) then Reply(s, BAD_REQUEST, AlreadyReviewed)
    else match NewReview(Some(user.userId), q.revieweeId, q.donationId, q.pickupId, q.rating, q.comment, q.kind)
      case Err(errs) => Invalid(s, errs)
      case Ok(r) => Done(s.(reviews := s.reviews[newId := r]), CREATED, ReviewCreated, r)
  }

  /** The handler as written. */
  function CreateReview(s: Store, user: Claims, q: ReviewRequest, newId: Id): (o: Outcome<Review>)
    requires newId !in s.reviews
    ensures o.code == CREATED ==> o.body.Some? && ValidReview(o.body.value) && o.body.value.revieweeId != user.userId
    ensures o.code == CREATED ==> q.revieweeId.Some?
                                  && forall k :: k in s.reviews ==> !DuplicateAsWritten(s.reviews[k], user.userId, q)
    ensures o.code != CREATED ==> o.store == s
  {
    CreateReviewWith(s, user, q, newId, false)
  }

  /** The handler with the duplicate rule corrected. */
  function CreateReviewCorrected(s: Store, user: Claims, q: ReviewRequest, newId: Id): (o: Outcome<Review>)
    requires newId !in s.reviews
    ensures o.code == CREATED ==> o.body.Some? && ValidReview(o.body.value) && o.body.value.revieweeId != user.userId
    ensures o.code == CREATED ==> q.revieweeId.Some?
                                  && forall k :: k in s.reviews ==> !SameTransaction(s.reviews[k], user.userId, q)
    ensures o.code != CREATED ==> o.store == s
  {
    CreateReviewWith(s, user, q, newId, true)
  }

  /** As written, a review of a donation that carries no pickup reference
      blocks every later review of the same user by the same reviewer that
      also carries no pickup reference, whatever donation it is about. */
  lemma EarlierReviewBlocksUnrelatedDonation(s: Store, user: Claims, q: ReviewRequest, newId: Id, k: Id)
    requires newId !in s.reviews
    requires q.revieweeId.Some? && TruthyNumber(q.rating) && Truthy(q.kind)
    requires q.revieweeId.value != user.userId && q.revieweeId.value in s.users
    requires k in s.reviews && s.reviews[k].reviewerId == user.userId && s.reviews[k].revieweeId == q.revieweeId.value
    requires s.reviews[k].pickupId.None? && q.pickupId.None?
    ensures CreateReview(s, user, q, newId) == Reply(s, BAD_REQUEST, AlreadyReviewed)
  {
    assert DuplicateAsWritten(s.reviews[k], user.userId, q);
  }

  /** The corrected rule lets that review through when it is about a
      different donation and is otherwise valid. */
  lemma CorrectedRuleAdmitsOtherDonation(s: Store, user: Claims, q: ReviewRequest, newId: Id)
    requires newId !in s.reviews
    requires q.revieweeId.Some? && TruthyNumber(q.rating) && Truthy(q.kind)
    requires q.revieweeId.value != user.userId && q.revieweeId.value in s.users
    requires q.pickupId.None? && q.donationId.Some?
    requires forall k :: k in s.reviews ==> s.reviews[k].donationId != q.donationId
    requires NewReview(Some(user.userId), q.revieweeId, q.donationId, q.pickupId, q.rating, q.comment, q.kind).Ok?
    ensures CreateReviewCorrected(s, user, q, newId).code == CREATED
  {
  }

  /** The corrected rule still refuses a second review of the same donation. */
  lemma CorrectedRuleRefusesSameDonation(s: Store, user: Claims, q: ReviewRequest, newId: Id, k: Id)
    requires newId !in s.reviews
    requires q.revieweeId.Some? && TruthyNumber(q.rating) && Truthy(q.kind)
    requires q.revieweeId.value != user.userId && q.revieweeId.value in s.users
    requires k in s.reviews && s.reviews[k].reviewerId == user.userId && s.reviews[k].revieweeId == q.revieweeId.value
    requires q.donationId.Some? && s.reviews[k].donationId == q.donationId
    ensures CreateReviewCorrected(s, user, q, newId) == Reply(s, BAD_REQUEST, AlreadyReviewed)
  {
    assert SameTransaction(s.reviews[k], user.userId, q);
  }

  /** Any duplicate under the corrected rule is also one as written, so the
      correction only ever admits more reviews. */
  lemma CorrectedRuleIsNarrower(r: Review, reviewerId: Id, q: ReviewRequest)
    requires q.revieweeId.Some?
    ensures SameTransaction(r, reviewerId, q) ==> DuplicateAsWritten(r, reviewerId, q)
  {
  }

  /** The edit the handler applies before saving: a truthy rating and a
      present (trimmed) comment replace the stored ones. */
  function ApplyEdit(r: Review, rating: Option<real>, comment: Option<string>): (r1: Review)
    ensures r1 == r.(rating := r1.rating, comment := r1.comment)
    ensures TruthyNumber(rating) ==> r1.rating == rating.value
    ensures !TruthyNumber(rating) ==> r1.rating == r.rating
    ensures comment.Some? ==> r1.comment == Some(Trim(comment.value))
    ensures comment.None? ==> r1.comment == r.comment
  {
    r.(rating := if TruthyNumber(rating) then rating.value else r.rating,
       comment := if comment.Some? then TrimComment(comment) else r.comment)
  }

  /** Editing a valid review can be saved exactly when the new rating and
      the new comment are within the schema's bounds; the result is valid. */
  lemma EditSavable(r: Review, rating: Option<real>, comment: Option<string>)
    requires ValidReview(r)
    ensures SaveReview(ApplyEdit(r, rating, comment)).Ok? <==>
              && (TruthyNumber(rating) ==> MinRating <= rating.value <= MaxRating)
              && (comment.Some? ==> Utf16Length(Trim(comment.value)) <= MaxCommentLength)
    ensures SaveReview(ApplyEdit(r, rating, comment)).Ok? ==> ValidReview(ApplyEdit(r, rating, comment))
  {
    if comment.Some? {
      TrimIdempotent(comment.value);
    }
  }

  /** `PUT /:id`: only the reviewer may edit; a truthy rating and a present
      comment replace the stored ones; a failed validation is answered as a
      server error. */
  function UpdateReview(s: Store, user: Claims, id: Id, rating: Option<real>, comment: Option<string>): (o: Outcome<Review>)
    ensures id !in s.reviews ==> o == Reply(s, NOT_FOUND, ReviewNotFound)
    ensures id in s.reviews && s.reviews[id].reviewerId != user.userId ==> o == Reply(s, FORBIDDEN, NotAuthorizedToUpdate)
    ensures o.code == OK ==>
              && id in s.reviews && s.reviews[id].reviewerId == user.userId
              && o.body.Some?
              && o.body.value.rating == (if TruthyNumber(rating) then rating.value else s.reviews[id].rating)
              && o.body.value.comment == (if comment.Some? then TrimComment(comment) else s.reviews[id].comment)
              && o.body.value == s.reviews[id].(rating := o.body.value.rating, comment := o.body.value.comment)
              && o.store == s.(reviews := s.reviews[id := o.body.value])
    ensures o.code == OK && comment.Some? ==> Utf16Length(Trim(comment.value)) <= MaxCommentLength
    ensures o.code == OK && TruthyNumber(rating) ==> MinRating <= rating.value <= MaxRating
    ensures o.code == OK && ValidReview(s.reviews[id]) ==> ValidReview(o.body.value)
    ensures id in s.reviews && s.reviews[id].reviewerId == user.userId && ValidReview(s.reviews[id]) ==>
              (o.code == OK <==> && (TruthyNumber(rating) ==> MinRating <= rating.value <= MaxRating)
                                 && (comment.Some? ==> Utf16Length(Trim(comment.value)) <= MaxCommentLength))
    ensures o.code != OK ==> o.store == s && (o.code == NOT_FOUND || o.code == FORBIDDEN || o.code == SERVER_ERROR)
  {
    if id !in s.reviews then Reply(s, NOT_FOUND, ReviewNotFound)
    else
      var r := s.reviews[id];
      if r.reviewerId != user.userId then Reply(s, FORBIDDEN, NotAuthorizedToUpdate)
      else
        var r1 := ApplyEdit(r, rating, comment);
        assert ValidReview(r) ==> (SaveReview(r1).Ok? ==> ValidReview(r1)) by {
          if ValidReview(r) { EditSavable(r, rating, comment); }
        }
        assert ValidReview(r) ==> (SaveReview(r1).Ok? <==>
                                     && (TruthyNumber(rating) ==> MinRating <= rating.value <= MaxRating)
                                     && (comment.Some? ==> Utf16Length(Trim(comment.value)) <= MaxCommentLength)) by {
          if ValidReview(r) { EditSavable(r, rating, comment); }
        }
        match SaveReview(r1)
        case Err(_) => Reply(s, SERVER_ERROR, ServerErrorMessage)
        case Ok(r2) => Done(s.(reviews := s.reviews[id := r2]), OK, ReviewUpdated, r2)
  }

  /** `DELETE /:id`: the reviewer or an admin may remove a review. */
  function DeleteReview(s: Store, user: Claims, id: Id): (o: Outcome<()>)
    ensures id !in s.reviews ==> o == Reply(s, NOT_FOUND, ReviewNotFound)
    ensures o.code == OK <==> id in s.reviews && (s.reviews[id].reviewerId == user.userId || user.role == AdminRole)
    ensures o.code == OK ==> o.store == s.(reviews := s.reviews - {id})
    ensures (id in s.reviews && s.reviews[id].reviewerId != user.userId && user.role != AdminRole)
              ==> o == Reply(s, FORBIDDEN, NotAuthorizedToDelete)
  {
    if id !in s.reviews then Reply(s, NOT_FOUND, ReviewNotFound)
    else if s.reviews[id].reviewerId != user.userId && user.role != AdminRole then
      Reply(s, FORBIDDEN, NotAuthorizedToDelete)
    else Reply(s.(reviews := s.reviews - {id}), OK, ReviewDeleted)
  }

  /** A created review satisfies the schema, so creation keeps every stored
      review valid. */
  lemma CreateKeepsReviewsValid(s: Store, user: Claims, q: ReviewRequest, newId: Id, corrected: bool)
    requires ReviewsValid(s) && newId !in s.reviews
    ensures ReviewsValid(CreateReviewWith(s, user, q, newId, corrected).store)
  {
    var o := CreateReviewWith(s, user, q, newId, corrected);
    if o.code == CREATED {
      forall k | k in o.store.reviews
        ensures ValidReview(o.store.reviews[k])
      {
        if k != newId {
          assert o.store.reviews[k] == s.reviews[k];
        }
      }
    }
  }

  /** An edit that reaches the store passed the rating and comment
      validators, so editing keeps every stored review valid. */
  lemma UpdateKeepsReviewsValid(s: Store, user: Claims, id: Id, rating: Option<real>, comment: Option<string>)
    requires ReviewsValid(s)
    ensures ReviewsValid(UpdateReview(s, user, id, rating, comment).store)
  {
    var o := UpdateReview(s, user, id, rating, comment);
    if o.code == OK {
      assert ValidReview(s.reviews[id]);
      forall k | k in o.store.reviews
        ensures ValidReview(o.store.reviews[k])
      {
        if k != id {
          assert o.store.reviews[k] == s.reviews[k];
        }
      }
    }
  }

  /** Deleting a review keeps every remaining review valid. */
  lemma DeleteKeepsReviewsValid(s: Store, user: Claims, id: Id)
    requires ReviewsValid(s)
    ensures ReviewsValid(DeleteReview(s, user, id).store)
  {
  }

  // ---------------------------------------------------------------------
  // Reading a user's reviews

  /** The stored reviews satisfying `keep`, in the order of `order` (the
      stored review ids by creation time, newest first). */
  function ReviewsInOrder(s: Store, order: seq<Id>, keep: Review -> bool): (r: seq<Review>)
    ensures forall x :: x in r ==> x in s.reviews.Values && keep(x)
    ensures forall k :: k in order && k in s.reviews && keep(s.reviews[k]) ==> s.reviews[k] in r
    ensures ListsEach(order, s.reviews) ==> |r| == |Matching(s.reviews, keep)|
  {
    var ids := Select(order, s.reviews, keep);
    var docs := Documents(ids, s.reviews);
    assert ListsEach(order, s.reviews) ==> |ids| == |Matching(s.reviews, keep)| by {
      if ListsEach(order, s.reviews) { SelectCountsMatches(order, s.reviews, keep); }
    }
    assert forall i :: 0 <= i < |docs| ==> docs[i] == s.reviews[ids[i]];
    assert forall k :: k in ids ==> s.reviews[k] in docs;
    docs
  }

  /** The reviews about `userId`, newest first. */
  function ReviewsAboutInOrder(s: Store, order: seq<Id>, userId: Id): (r: seq<Review>)
    ensures forall x :: x in r ==> x.revieweeId == userId && x in s.reviews.Values
    ensures forall k :: k in order && k in s.reviews && s.reviews[k].revieweeId == userId ==> s.reviews[k] in r
    ensures ListsEach(order, s.reviews) ==> |r| == |ReviewsAbout(s.reviews, userId)|
  {
    var keep := (x: Review) => x.revieweeId == userId;
    assert Matching(s.reviews, keep) == ReviewsAbout(s.reviews, userId);
    ReviewsInOrder(s, order, keep)
  }

  /** `GET /my/given`: the reviews the caller wrote, newest first. */
  function MyGivenReviews(s: Store, user: Claims, order: seq<Id>): (o: Outcome<seq<Review>>)
    ensures o.store == s && o.code == OK && o.body.Some?
    ensures forall x :: x in o.body.value ==> x.reviewerId == user.userId && x in s.reviews.Values
    ensures forall k :: k in order && k in s.reviews && s.reviews[k].reviewerId == user.userId
              ==> s.reviews[k] in o.body.value
    ensures ListsEach(order, s.reviews) ==>
              |o.body.value| == |set k | k in s.reviews && s.reviews[k].reviewerId == user.userId|
  {
    assert Matching(s.reviews, (x: Review) => x.reviewerId == user.userId)
           == set k | k in s.reviews && s.reviews[k].reviewerId == user.userId;
    Done(s, OK, GivenRetrieved, ReviewsInOrder(s, order, (x: Review) => x.reviewerId == user.userId))
  }

  datatype UserReviews = UserReviews(reviews: seq<Review>, averageRating: real, totalReviews: nat)

  /** A value in an aggregation `$match`. Pipelines are not cast to the
      schema's types, so a path parameter stays a string, and a string is
      never equal to a stored object id. */
  datatype MatchValue = ObjectIdValue(id: Id) | StringValue(text: string)

  function AggregateMatch(reviews: map<Id, Review>, v: MatchValue): (ks: set<Id>)
    ensures ks <= reviews.Keys
    ensures v.StringValue? ==> ks == {}
    ensures v.ObjectIdValue? ==> ks == ReviewsAbout(reviews, v.id)
  {
    set k | k in reviews && ObjectIdValue(reviews[k].revieweeId) == v
  }

  /** `GET /user/:userId` as written: the list comes from `find`, which
      casts the parameter, while the statistics come from the uncast
      aggregation, which matches nothing and falls back to 0 and 0. */
  method ReviewsOfUser(s: Store, order: seq<Id>, userId: Id, userIdText: string) returns (o: Outcome<UserReviews>)
    ensures o.store == s && o.code == OK && o.body.Some?
    ensures o.body.value.reviews == ReviewsAboutInOrder(s, order, userId)
    ensures o.body.value.totalReviews == 0 && o.body.value.averageRating == 0.0
  {
    var stats := AverageOver(s.reviews, AggregateMatch(s.reviews, StringValue(userIdText)));
    o := Done(s, OK, ReviewsRetrieved, UserReviews(ReviewsAboutInOrder(s, order, userId), stats.averageRating, stats.totalReviews));
  }

  /** A user with reviews still gets a listing that is not empty, so the
      route as written answers a non-empty list next to a count of 0. */
  lemma ListedReviewsNotEmpty(s: Store, order: seq<Id>, userId: Id, k: Id)
    requires k in s.reviews && s.reviews[k].revieweeId == userId && k in order
    ensures |ReviewsAboutInOrder(s, order, userId)| > 0 && |ReviewsAbout(s.reviews, userId)| > 0
  {
    assert s.reviews[k] in ReviewsAboutInOrder(s, order, userId);
    assert k in ReviewsAbout(s.reviews, userId);
  }

  /** `GET /my/received` as written: the token's user id is a string too,
      so the statistics suffer the same uncast match. */
  method MyReceivedReviews(s: Store, user: Claims, order: seq<Id>, userIdText: string) returns (o: Outcome<UserReviews>)
    ensures o.store == s && o.code == OK && o.message == ReceivedRetrieved && o.body.Some?
    ensures o.body.value.reviews == ReviewsAboutInOrder(s, order, user.userId)
    ensures o.body.value.totalReviews == 0 && o.body.value.averageRating == 0.0
  {
    o := ReviewsOfUser(s, order, user.userId, userIdText);
    o := o.(message := ReceivedRetrieved);
  }

  /** The route with the identifier cast before the aggregation: the
      statistics then describe the reviews about the user. */
  method ReviewsOfUserCast(s: Store, order: seq<Id>, userId: Id) returns (o: Outcome<UserReviews>)
    ensures o.store == s && o.code == OK && o.body.Some?
    ensures o.body.value.reviews == ReviewsAboutInOrder(s, order, userId)
    ensures o.body.value.totalReviews == |ReviewsAbout(s.reviews, userId)|
    ensures ReviewsValid(s) && o.body.value.totalReviews > 0 ==> MinRating <= o.body.value.averageRating <= MaxRating
    ensures ListsEach(order, s.reviews) ==> |o.body.value.reviews| == o.body.value.totalReviews
  {
    var stats := CalculateAverageRating(s.reviews, userId);
    if ReviewsValid(s) && stats.totalReviews > 0 {
      AverageWithinRatingRange(s.reviews, userId, stats);
    }
    o := Done(s, OK, ReviewsRetrieved, UserReviews(ReviewsAboutInOrder(s, order, userId), stats.averageRating, stats.totalReviews));
  }
}

=== FILE: stores.dfy ===
/** The five collections the handlers read and write, and the shape of a
    handler's answer. */
module Stores {
  import opened Common
  import opened UserModel
  import opened DonationModel
  import opened PickupModel
  import opened ReviewModel
  import opened DropOffModel
  import opened AuthGate

  datatype Store = Store(
    users: map<Id, User>,
    donations: map<Id, Donation>,
    pickups: map<Id, Pickup>,
    reviews: map<Id, Review>,
    dropOffs: map<Id, DropOff>)

  /** What a handler leaves behind: the store after its writes, the HTTP
      status, the `message` field, the returned document if any, and the
      `errors` list of a validation failure. */
  datatype Outcome<B> = Outcome(store: Store, code: int, message: string, body: Option<B>, errors: seq<string>)

  function Reply<B>(s: Store, code: int, message: string): (o: Outcome<B>)
    ensures o.store == s && o.code == code && o.message == message && o.body.None? && o.errors == []
  {
    Outcome(s, code, message, None, [])
  }

  /** The `ValidationError` branch shared by the handlers: 400, the fixed
      message and every validator message. */
  function Invalid<B>(s: Store, errs: seq<string>): (o: Outcome<B>)
    ensures o.store == s && o.code == BAD_REQUEST && o.message == ValidationErrorMessage
    ensures o.body.None? && o.errors == errs
  {
    Outcome(s, BAD_REQUEST, ValidationErrorMessage, None, errs)
  }

  function Done<B>(s: Store, code: int, message: string, body: B): (o: Outcome<B>)
    ensures o.store == s && o.code == code && o.message == message && o.body == Some(body) && o.errors == []
  {
    Outcome(s, code, message, Some(body), [])
  }

  /** A route behind `auth(roles)`: a refused caller gets the gate's answer
      and the store is untouched; an admitted caller reaches the handler
      with the token's payload. */
  function Guarded<B>(s: Store, header: Option<string>, verify: string -> Option<Claims>, roles: seq<Role>,
                      handler: Claims -> Outcome<B>): (o: Outcome<B>)
    ensures Authenticate(header, verify, roles).Denied? ==>
              o == Reply(s, Authenticate(header, verify, roles).code, Authenticate(header, verify, roles).message)
    ensures Authenticate(header, verify, roles).Granted? ==> o == handler(Authenticate(header, verify, roles).user)
  {
    match Authenticate(header, verify, roles)
    case Denied(code, message) => Reply(s, code, message)
    case Granted(c) => handler(c)
  }
}

=== FILE: text.dfy ===
/** The string operations the schemas and the middleware apply: the `trim`
    and `lowercase` setters, first-occurrence search and `String.replace`
    with a string pattern. */
module Text {
  import opened Common

  /** The whitespace `String.prototype.trim` removes (the ASCII set, the
      no-break space and the byte-order mark). */
  predicate IsSpace(c: char) {
    c == ' ' || c == '\t' || c == '\n' || c == '\r' || c == '\U{0B}' || c == '\U{0C}'
    || c == '\U{A0}' || c == '\U{FEFF}'
  }

  predicate AllSpace(s: string) {
    forall k :: 0 <= k < |s| ==> IsSpace(s[k])
  }

  /** The first position at or after `i` that holds no whitespace. */
  function SkipSpace(s: string, i: nat): (j: nat)
    requires i <= |s|
    ensures i <= j <= |s|
    ensures forall k :: i <= k < j ==> IsSpace(s[k])
    ensures j == |s| || !IsSpace(s[j])
    decreases |s| - i
  {
    if i < |s| && IsSpace(s[i]) then SkipSpace(s, i + 1) else i
  }

  /** The position just after the last non-whitespace character before `j`. */
  function SkipSpaceBack(s: string, j: nat): (i: nat)
    requires j <= |s|
    ensures i <= j
    ensures forall k :: i <= k < j ==> IsSpace(s[k])
    ensures i == 0 || !IsSpace(s[i - 1])
  {
    if j > 0 && IsSpace(s[j - 1]) then SkipSpaceBack(s, j - 1) else j
  }

  /** Drops leading whitespace: the result is the longest suffix that does
      not start with whitespace, and everything dropped was whitespace. */
  function TrimStart(s: string): (r: string)
    ensures |r| <= |s| && r == s[|s| - |r|..]
    ensures AllSpace(s[..|s| - |r|])
    ensures r == [] || !IsSpace(r[0])
  {
    s[SkipSpace(s, 0)..]
  }

  /** Drops trailing whitespace: the result is the longest prefix that does
      not end with whitespace, and everything dropped was whitespace. */
  function TrimEnd(s: string): (r: string)
    ensures |r| <= |s| && r == s[..|r|]
    ensures AllSpace(s[|r|..])
    ensures r == [] || !IsSpace(r[|r| - 1])
  {
    s[..SkipSpaceBack(s, |s|)]
  }

  /** The `trim: true` setter: `s` is whitespace, then the result, then
      whitespace, and the result neither starts nor ends with whitespace. */
  function Trim(s: string): (r: string)
    ensures |r| <= |s|
    ensures r == [] || (!IsSpace(r[0]) && !IsSpace(r[|r| - 1]))
    ensures exists i :: 0 <= i <= |s| - |r| && s[i..][..|r|] == r
                        && AllSpace(s[..i]) && AllSpace(s[i..][|r|..])
  {
    var t := TrimStart(s);
    var r := TrimEnd(t);
    var i := |s| - |t|;
    assert s[i..] == t;
    assert s[i..][..|r|] == r;
    r
  }

  lemma TrimStartOfAllSpace(s: string)
    requires AllSpace(s)
    ensures TrimStart(s) == []
  {
  }

  /** A field trims to the empty string exactly when it is all whitespace, so
      a whitespace-only value fails a `required` validator. */
  lemma TrimEmptyIffAllSpace(s: string)
    ensures Trim(s) == [] <==> AllSpace(s)
  {
    var t := TrimStart(s);
    if AllSpace(s) {
      TrimStartOfAllSpace(s);
    }
    if Trim(s) == [] {
      assert AllSpace(t[0..]);
      assert t == [];
      assert s[..|s|] == s;
    }
  }

  lemma TrimStartFixed(s: string)
    requires s == [] || !IsSpace(s[0])
    ensures TrimStart(s) == s
  {
  }

  lemma TrimEndFixed(s: string)
    requires s == [] || !IsSpace(s[|s| - 1])
    ensures TrimEnd(s) == s
  {
  }

  /** A value with no whitespace at either end is its own trim. */
  lemma TrimFixed(s: string)
    requires s == [] || (!IsSpace(s[0]) && !IsSpace(s[|s| - 1]))
    ensures Trim(s) == s
  {
    TrimStartFixed(s);
    TrimEndFixed(s);
  }

  /** Trimming twice is trimming once: the setter is idempotent. */
  lemma TrimIdempotent(s: string)
    ensures Trim(Trim(s)) == Trim(s)
  {
    TrimFixed(Trim(s));
  }

  /** A character outside the Basic Multilingual Plane, which JavaScript
      stores as a surrogate pair. */
  predicate IsAstral(c: char) {
    c as int >= 0x1_0000
  }

  /** JavaScript's `length`: the number of UTF-16 code units, two for an
      astral character and one for any other. */
  function Utf16Length(s: string): (n: nat)
    ensures |s| <= n <= 2 * |s|
    ensures (forall i :: 0 <= i < |s| ==> !IsAstral(s[i])) ==> n == |s|
    ensures (forall i :: 0 <= i < |s| ==> IsAstral(s[i])) ==> n == 2 * |s|
  {
    if s == [] then 0 else (if IsAstral(s[0]) then 2 else 1) + Utf16Length(s[1..])
  }

  predicate IsUpper(c: char) {
    'A' <= c <= 'Z'
  }

  /** The ASCII lower-case partner of a letter: 32 code points further on. */
  function LowerChar(c: char): (r: char)
    ensures IsUpper(c) ==> 'a' <= r <= 'z' && r as int == c as int + 32
    ensures !IsUpper(c) ==> r == c
  {
    if IsUpper(c) then (c as int + 32) as char else c
  }

  /** The `lowercase: true` setter (ASCII letters). */
  function ToLower(s: string): (r: string)
    ensures |r| == |s|
    ensures forall i :: 0 <= i < |r| ==> !IsUpper(r[i])
    ensures forall i :: 0 <= i < |s| && !IsUpper(s[i]) ==> r[i] == s[i]
    ensures forall i :: 0 <= i < |s| && IsUpper(s[i]) ==> 'a' <= r[i] <= 'z' && r[i] as int == s[i] as int + 32
    ensures forall i :: 0 <= i < |s| ==> (IsSpace(r[i]) <==> IsSpace(s[i]))
  {
    seq(|s|, i requires 0 <= i < |s| => LowerChar(s[i]))
  }

  /** Lowercasing works character by character. */
  lemma ToLowerPointwise(s: string)
    ensures |ToLower(s)| == |s| && forall i :: 0 <= i < |s| ==> ToLower(s)[i] == LowerChar(s[i])
  {
  }

  /** Lowercasing keeps a value without blanks at its ends free of them. */
  lemma ToLowerKeepsEnds(t: string)
    requires t == [] || (!IsSpace(t[0]) && !IsSpace(t[|t| - 1]))
    ensures var r := ToLower(t); r == [] || (!IsSpace(r[0]) && !IsSpace(r[|r| - 1]))
  {
  }

  /** A value without upper-case letters is its own lower-case form. */
  lemma ToLowerFixed(s: string)
    requires forall i :: 0 <= i < |s| ==> !IsUpper(s[i])
    ensures ToLower(s) == s
  {
  }

  predicate OccursAt(s: string, p: string, j: int) {
    0 <= j && j + |p| <= |s| && s[j..j + |p|] == p
  }

  /** The first position at or after `from` where `p` occurs in `s`. */
  function IndexFrom(s: string, p: string, from: nat): (r: Option<nat>)
    ensures r.Some? ==> from <= r.value && OccursAt(s, p, r.value)
    ensures r.Some? ==> forall j :: from <= j < r.value ==> !OccursAt(s, p, j)
    ensures r.None? ==> forall j :: from <= j ==> !OccursAt(s, p, j)
    decreases |s| - from
  {
    if from + |p| > |s| then None
    else if s[from..from + |p|] == p then Some(from)
    else IndexFrom(s, p, from + 1)
  }

  /** `s.indexOf(p)`: the first occurrence of `p` in `s`, if any. */
  function IndexOf(s: string, p: string): (r: Option<nat>)
    ensures r.Some? ==> OccursAt(s, p, r.value)
    ensures r.Some? ==> forall j :: 0 <= j < r.value ==> !OccursAt(s, p, j)
    ensures r.None? ==> forall j :: !OccursAt(s, p, j)
  {
    IndexFrom(s, p, 0)
  }

  /** `s.replace(p, rep)` with a string pattern: only the first occurrence
      of `p` is replaced; without one, `s` is returned unchanged. */
  function ReplaceFirst(s: string, p: string, rep: string): (r: string)
    ensures (forall j :: !OccursAt(s, p, j)) ==> r == s
    ensures forall i :: OccursAt(s, p, i) && (forall j :: 0 <= j < i ==> !OccursAt(s, p, j))
              ==> r == s[..i] + rep + s[i + |p|..]
  {
    match IndexOf(s, p)
    case None => s
    case Some(i) => s[..i] + rep + s[i + |p|..]
  }

  /** When `s` starts with `p`, replacing the first occurrence strips that prefix. */
  lemma ReplaceFirstPrefix(p: string, t: string)
    ensures ReplaceFirst(p + t, p, "") == t
  {
    var s := p + t;
    assert s[0..|p|] == p;
    assert OccursAt(s, p, 0);
    assert s[|p|..] == t;
  }

}

=== FILE: user.dfy ===
/** The user schema: required fields, the role enum, the email setters and
    pattern, and the password length rule. */
module UserModel {
  import opened Common
  import opened Text

  /** A stored account. `password` holds whatever the handler assigned to
      the field, which the registration handler sets to the bcrypt hash. */
  datatype User = User(name: string, email: string, password: string, role: Role, location: Location)

  /** A user as the API returns it: every field except the password. */
  datatype PublicUser = PublicUser(id: Id, name: string, email: string, role: Role, location: Location)

  function Public(id: Id, u: User): (p: PublicUser)
    ensures p.id == id && p.role == u.role && p.email == u.email && p.name == u.name
  {
    PublicUser(id, u.name, u.email, u.role, u.location)
  }

  const MinPasswordLength := 6

  const NameRequired := "Name is required"
  const EmailRequired := "Email is required"
  const EmailInvalid := "Please enter a valid email"
  const PasswordRequired := "Password is required"
  const PasswordTooShort := "Password must be at least 6 characters long"

  /** The `trim` and `lowercase` setters of the email path. */
  function NormalizeEmail(s: string): (r: string)
    ensures |r| <= |s|
    ensures forall i :: 0 <= i < |r| ==> !IsUpper(r[i])
    ensures r == [] || (!IsSpace(r[0]) && !IsSpace(r[|r| - 1]))
    ensures |r| == |Trim(s)| && forall i :: 0 <= i < |r| ==> r[i] == LowerChar(Trim(s)[i])
  {
    var t := Trim(s);
    var r := ToLower(t);
    ToLowerKeepsEnds(t);
    ToLowerPointwise(t);
    r
  }

  /** Normalising a stored email again changes nothing, so the value kept
      in the store is a fixed point of the setters. */
  lemma NormalizeEmailIdempotent(s: string)
    ensures NormalizeEmail(NormalizeEmail(s)) == NormalizeEmail(s)
  {
    NormalizedIsFixed(NormalizeEmail(s));
  }

  /** An address without blanks at its ends and without upper-case letters
      is left alone by the setters. */
  lemma NormalizedIsFixed(r: string)
    requires r == [] || (!IsSpace(r[0]) && !IsSpace(r[|r| - 1]))
    requires forall i :: 0 <= i < |r| ==> !IsUpper(r[i])
    ensures NormalizeEmail(r) == r
  {
    TrimFixed(r);
    ToLowerFixed(r);
  }

  predicate IsWordChar(c: char) {
    'a' <= c <= 'z' || 'A' <= c <= 'Z' || '0' <= c <= '9' || c == '_'
  }

  predicate IsSeparator(c: char) {
    c == '.' || c == '-'
  }

  predicate AllWord(s: string) {
    forall i :: 0 <= i < |s| ==> IsWordChar(s[i])
  }

  /** The sub-pattern `\w+([.-]?\w+)*`: word characters, with single `.` or
      `-` separators allowed between them, and a word character at both ends. */
  predicate WordRun(s: string) {
    && |s| > 0
    && IsWordChar(s[0])
    && IsWordChar(s[|s| - 1])
    && (forall i :: 0 <= i < |s| ==> IsWordChar(s[i]) || IsSeparator(s[i]))
    && (forall i :: 0 <= i < |s| - 1 ==> IsWordChar(s[i]) || IsWordChar(s[i + 1]))
  }

  /** The email pattern `^\w+([.-]?\w+)*@\w+([.-]?\w+)*(\.\w{2,3})+$`.
      Every repetition of the final group but the last has the shape of the
      group before it, so the domain matches exactly when it is a word run,
      then one `.`, then two or three word characters. */
  predicate MatchesEmailPattern(s: string) {
    exists at, dot | 0 < at < dot < |s| :: EmailSplit(s, at, dot)
  }

  /** `s` read as local part, `@` at `at`, domain word run, `.` at `dot`,
      and a final two- or three-character word. */
  predicate EmailSplit(s: string, at: int, dot: int) {
    && 0 < at < dot < |s|
    && s[at] == '@'
    && s[dot] == '.'
    && WordRun(s[0..at])
    && WordRun(s[at + 1..dot])
    && 2 <= |s| - dot - 1 <= 3
    && AllWord(s[dot + 1..|s|])
  }

  lemma LowerSlice(s: string, i: int, j: int)
    requires 0 <= i <= j <= |s|
    ensures ToLower(s)[i..j] == ToLower(s[i..j])
  {
    var a, b := ToLower(s)[i..j], ToLower(s[i..j]);
    assert forall k :: 0 <= k < j - i ==> a[k] == LowerChar(s[i + k]) == b[k];
  }

  lemma WordRunLower(s: string)
    requires WordRun(s)
    ensures WordRun(ToLower(s))
  {
    var l := ToLower(s);
    forall i | 0 <= i < |s|
      ensures IsWordChar(l[i]) <==> IsWordChar(s[i])
      ensures IsSeparator(l[i]) <==> IsSeparator(s[i])
    {
      assert l[i] == LowerChar(s[i]);
    }
  }

  lemma AllWordLower(s: string)
    requires AllWord(s)
    ensures AllWord(ToLower(s))
  {
    var l := ToLower(s);
    forall i | 0 <= i < |s|
      ensures IsWordChar(l[i])
    {
      assert l[i] == LowerChar(s[i]);
    }
  }

  /** Lowercasing keeps every part of a split in place. */
  lemma EmailSplitLower(s: string, at: int, dot: int)
    requires EmailSplit(s, at, dot)
    ensures EmailSplit(ToLower(s), at, dot)
  {
    var l := ToLower(s);
    assert l[at] == '@' && l[dot] == '.' by {
      assert l[at] == LowerChar(s[at]) && l[dot] == LowerChar(s[dot]);
    }
    assert WordRun(l[0..at]) by {
      LowerSlice(s, 0, at);
      WordRunLower(s[0..at]);
    }
    assert WordRun(l[at + 1..dot]) by {
      LowerSlice(s, at + 1, dot);
      WordRunLower(s[at + 1..dot]);
    }
    assert AllWord(l[dot + 1..|l|]) by {
      LowerSlice(s, dot + 1, |s|);
      AllWordLower(s[dot + 1..|s|]);
    }
  }

  /** The pattern is insensitive to the `lowercase` setter: an address that
      matches before lowercasing still matches after it. */
  lemma EmailPatternSurvivesLowercase(s: string)
    requires MatchesEmailPattern(s)
    ensures MatchesEmailPattern(ToLower(s))
  {
    var at, dot :| EmailSplit(s, at, dot);
    EmailSplitLower(s, at, dot);
  }

  /** An address with a hyphenated domain and a three-letter ending matches. */
  lemma EmailPatternExamples()
    ensures MatchesEmailPattern("ann@food-bank.org")
  {
    var s := "ann@food-bank.org";
    assert s[0..3] == "ann" && s[4..13] == "food-bank" && s[14..17] == "org";
    assert WordRun("ann") && AllWord("org");
    HyphenatedWordRun();
    assert s[3] == '@' && s[13] == '.';
    assert EmailSplit(s, 3, 13);
  }

  lemma HyphenatedWordRun()
    ensures WordRun("food-bank")
  {
    var w := "food-bank";
    assert forall i :: 0 <= i < |w| ==> IsWordChar(w[i]) || IsSeparator(w[i]);
  }

  /** A domain without a dot, or whose last part is one character, is refused. */
  lemma EmailPatternRefusals()
    ensures !MatchesEmailPattern("ann@food")
    ensures !MatchesEmailPattern("ann@food.c")
  {
    var s := "ann@food";
    assert forall k :: 0 <= k < |s| ==> s[k] != '.';
    var t := "ann@food.c";
    assert forall k :: 0 <= k < |t| && t[k] == '.' ==> k == 8;
  }

  /** The schema validators of a user document, in path order. */
  predicate ValidUser(u: User) {
    u.name != "" && MatchesEmailPattern(u.email) && Utf16Length(u.password) >= MinPasswordLength
  }

  function NameCheck(name: string): Option<string> {
    if name == "" then Some(NameRequired) else None
  }

  function EmailCheck(email: string): (r: Option<string>)
    ensures r.None? <==> MatchesEmailPattern(email)
  {
    if email == "" then Some(EmailRequired)
    else if !MatchesEmailPattern(email) then Some(EmailInvalid)
    else None
  }

  /** The required and minlength validators; the length is JavaScript's,
      in UTF-16 code units. */
  function PasswordCheck(password: string): (r: Option<string>)
    ensures r.None? <==> Utf16Length(password) >= MinPasswordLength
  {
    if password == "" then Some(PasswordRequired)
    else if Utf16Length(password) < MinPasswordLength then Some(PasswordTooShort)
    else None
  }

  /** The minimum counts UTF-16 code units, not characters: three emoji
      outside the Basic Multilingual Plane are long enough, while two
      letters and one such emoji are not. */
  lemma PasswordLengthCountsCodeUnits()
    ensures PasswordCheck("\U{1F600}\U{1F600}\U{1F600}") == None
    ensures PasswordCheck("ab\U{1F600}") == Some(PasswordTooShort)
  {
    var astral := "\U{1F600}\U{1F600}\U{1F600}";
    assert forall i :: 0 <= i < |astral| ==> IsAstral(astral[i]);
    var mixed := "ab\U{1F600}";
    assert mixed[1..] == "b\U{1F600}" && mixed[1..][1..] == "\U{1F600}";
  }

  /** The messages of the failing validators; the role and the location are
      typed and always present here, so they never fail. */
  function UserViolations(u: User): (errs: seq<string>)
    ensures errs == [] <==> ValidUser(u)
    ensures u.name == "" ==> NameRequired in errs
    ensures u.email != "" && !MatchesEmailPattern(u.email) ==> EmailInvalid in errs
    ensures u.password != "" && Utf16Length(u.password) < MinPasswordLength ==> PasswordTooShort in errs
  {
    Collect([NameCheck(u.name), EmailCheck(u.email), PasswordCheck(u.password)])
  }

  /** The unique index on email: no two stored users share an address. */
  ghost predicate EmailsUnique(users: map<Id, User>) {
    forall a, b :: a in users && b in users && a != b ==> users[a].email != users[b].email
  }

  predicate EmailTaken(users: map<Id, User>, email: string) {
    exists k :: k in users && users[k].email == email
  }
}
